=== FILE: README.md ===
# Wyze lock / Airbnb access codes — a Dafny model

The system keeps the keypad codes on Wyze smart locks in step with Airbnb
reservations. A poller reads each home's iCalendar feed. Every reserved
stay gives a booking whose code is the last four digits of the guest's phone
number. The poller stamps the booking's dates with the home's check-in and
check-out clock times and creates a lock code named `"<weekday>-<N>days"`.
Once a day it deletes every "...days" code whose end time has passed.
Five helper scripts do the rest:

- a debug script sets one daily, encrypted code;
- a script sets a fixed 24-hour guest code after checking the lock's keypad;
- a retriever logs in and writes the tokens to `.env`;
- a keypad script lists keypads and looks up each lock's keypad;
- a lock-listing script prints lock attributes.

Five of the six scripts start with a variant of `get_client`. It probes the
access token. On an expiry error it refreshes once; otherwise it re-raises
the probe's error. The variants differ in the refresh: a POST that must
answer 200, a POST checked by `raise_for_status()`, or an SDK refresh that
writes `.env` and exits. The booking poller builds its client once at
import, without a guard.

The model is pure and functional:

- Python exceptions are the `Exc` values of `Outcomes`. A computation yields
  `Result<T>`, and a script-level call ends `Normal`, `Handled` (caught and
  logged) or `Propagated`.
- Each remote call (feed download, SDK call, refresh POST) is an input to the
  function that makes the call. Such an input is a reply value, or a
  function from request to reply.
- `datetime` is a field record over the proleptic Gregorian calendar.
  `Ordinal` is `toordinal()`, and `Weekday` and `DaysBetween` are
  `weekday()` and `timedelta.days`, which is the floor of the difference.
- The wall clock (`datetime.now()`, `time.time()`) is a parameter.

Modules follow the scripts:

| module | covers |
|---|---|
| `Outcomes`, `Text`, `Clock`, `Api` | exceptions and results; strings and decimals; dates, `strftime`/`strptime`; SDK request records |
| `Labels` | the stay name and its read-back |
| `Bookings` | `fetch_airbnb_bookings` |
| `Provisioning` | `process_bookings`, `create_access_code` |
| `Revocation` | `delete_access_codes`, `cleanup_access_codes` |
| `Credentials` | `get_client` and the two HTTP `refresh_access_token` variants |
| `TokenRetriever` | get-access_refresh_token.py |
| `PinSet` | debug-pin-set.py |
| `GuestCode` | temp-single.py |
| `Keypads` | activate-keypad.py |
| `LockDevices` | list-devices.py |

Three behaviours of the code are worth stating plainly:

- A 15:00 Monday check-in with an 11:00 check-out three dates later is named
  "Mon-2days", because `(check_out - check_in).days` floors
  (`Provisioning.MondayStayLabel`).
- The poller creates a code for every booking on every run. It never looks
  at the codes already on the lock, so two stays with the same name get two
  codes (`Provisioning.CollidingStaysBothCreated`).
- The feed download fails only on 4xx and 5xx replies, as
  `raise_for_status()` decides; any other status is parsed
  (`Bookings.FetchBookings`).

## Model

| member | source | states |
|---|---|---|
| `Text.ContainsFromSpec` | wyze-lock-airbnb.py:46 | The `in` scan finds a substring exactly when it occurs at some index. |
| `Text.PyInt` | wyze-lock-airbnb.py:101-102 | `int()` succeeds exactly on a non-empty run of digits; anything else is a ValueError. |
| `Text.PyIntReadsBack` | wyze-lock-airbnb.py:101-102 | `int()` reads back a number's decimal text and its zero-padded field. |
| `Text.Split` | wyze-lock-airbnb.py:101-102 | `split(':')` yields at least one piece, no piece holds the separator, and joining the pieces gives back the string. |
| `Text.Lower` | activate-keypad.py:73 | `lower()` keeps the length and lowers each ASCII letter in place. |
| `Clock.Ordinal` | wyze-lock-airbnb.py:61-62 | `toordinal()`: the days since 0001-01-01, counting that day as 1, under the proleptic Gregorian leap-year rule. |
| `Clock.Weekday` | wyze-lock-airbnb.py:62 | `weekday()` lies in 0..6 (Monday 0). |
| `Clock.WeekdayAbbrev` | wyze-lock-airbnb.py:62 | `%a` is the three-letter English abbreviation of the weekday, "Mon" for 0 through "Sun" for 6. |
| `Clock.Earlier` | wyze-lock-airbnb.py:86 | `<` on naive datetimes compares year, month, day, hour, minute, second and microsecond in that order. |
| `Clock.EarlierIsInstantOrder` | wyze-lock-airbnb.py:86 | `datetime` `<` is the order of instants on one time line. |
| `Clock.DaysBetween` | wyze-lock-airbnb.py:61 | `(b - a).days` is the floor of the difference in whole days. |
| `Clock.DaysBetweenByDate` | wyze-lock-airbnb.py:61 | The day count is the calendar dates crossed, less one when check-out's clock time is earlier than check-in's. |
| `Clock.PlusOneDay` | debug-pin-set.py:153 | `+ timedelta(days=1)` moves to the next date at the same clock time; it raises OverflowError only on 9999-12-31. |
| `Clock.FormatIso` | wyze-lock-airbnb.py:67-68 | `%Y-%m-%dT%H:%M:%S` text is 19 characters; `ParseFormatIso` reads the fields back. |
| `Clock.ParseIso` | wyze-lock-airbnb.py:86 | `strptime` gives a whole-second value or a ValueError. |
| `Clock.ParseFormatIso` | wyze-lock-airbnb.py:67-86 | What create writes, delete parses back to the same instant to the second. |
| `Clock.FormatParseIso` | wyze-lock-airbnb.py:86 | Every end time the model's parser accepts is exactly the text create writes for the parsed instant. |
| `Clock.FormatHms` | debug-pin-set.py:100-101 | `%H%M%S` is six digits. |
| `Clock.FormatHmsExactlyClockTime` | debug-pin-set.py:99-103 | Two `%H%M%S` texts are equal exactly when hour, minute and second are; the date plays no part. |
| `Labels.Label` | wyze-lock-airbnb.py:61-62 | The name starts with check-in's weekday abbreviation and ends with "days". |
| `Labels.ParseLabelOf` | wyze-lock-airbnb.py:62 | The name reads back as exactly the weekday and the day count it was made from. |
| `Labels.LabelCollision` | wyze-lock-airbnb.py:61-62 | Two stays share a name exactly when they start on the same weekday and span the same whole days. |
| `Labels.LabelDays` | wyze-lock-airbnb.py:61-62 | The name's count is the dates crossed, less one when the departure time is earlier than the arrival time. |
| `Labels.NextDayLabel` | debug-pin-set.py:95-96 | A check-out one day after check-in is always named "<weekday>-1days". |
| `Bookings.SearchPhone` | wyze-lock-airbnb.py:48 | The search returns the four digits of the leftmost match, and nothing exactly when no match exists. |
| `Bookings.PhoneAt` | wyze-lock-airbnb.py:48 | The pattern `Phone Number \(Last 4 Digits\): (\d{4})` matches at an index when the label occurs there and four digits follow it. |
| `Bookings.Examine` | wyze-lock-airbnb.py:46-55 | A component fails only with a TypeError; a booking keeps the event's start and end. |
| `Bookings.ExamineSpec` | wyze-lock-airbnb.py:46-55 | A booking comes exactly from a VEVENT whose SUMMARY contains "Reserved" and whose DESCRIPTION matches the phone pattern. A missing SUMMARY or DESCRIPTION raises. |
| `Bookings.GuestCodeIsFourDigits` | wyze-lock-airbnb.py:48-50 | The guest code is four ASCII digits. |
| `Bookings.CollectBookings` | wyze-lock-airbnb.py:44-56 | A walk yields at most one booking per component. |
| `Bookings.CollectFailsAtFirstRaise` | wyze-lock-airbnb.py:45-48 | The walk fails exactly when a component raises, with the first such component's exception. |
| `Bookings.CollectSoundComplete` | wyze-lock-airbnb.py:45-55 | The bookings are exactly those of the accepted components. |
| `Bookings.CollectConcat` | wyze-lock-airbnb.py:45-55 | Bookings keep calendar-walk order. |
| `Bookings.FetchBookings` | wyze-lock-airbnb.py:39-56 | A transport failure or a 4xx/5xx status raises; any other reply yields the walk's bookings. |
| `Bookings.ReservedEventScenario` | wyze-lock-airbnb.py:45-55 | A "Reserved" event whose description has "...Last 4 Digits): 4821" yields one booking with code "4821". |
| `Provisioning.ClockSetting` | wyze-lock-airbnb.py:101-102 | A parsed "HH:MM" setting has non-negative hour and minute. |
| `Provisioning.Stamp` | wyze-lock-airbnb.py:101-102 | A stamped time is the event's time with only hour and minute replaced; a bare date fails. |
| `Provisioning.StampWithSetting` | wyze-lock-airbnb.py:101-102 | A well-formed "HH:MM" stamps exactly that clock time, keeping the date, seconds and microseconds. |
| `Provisioning.StampIdempotent` | wyze-lock-airbnb.py:101-102 | Stamping again with the same setting changes nothing. |
| `Provisioning.BookingRequest` | wyze-lock-airbnb.py:58-69 | The code sent is the guest's digits unchanged, both permission flags are true, and the name ends in "days". |
| `Provisioning.BookingRequestReadsBack` | wyze-lock-airbnb.py:61-68 | Start and end text parse back to check-in and check-out, and the name to check-in's weekday and the day count. |
| `Provisioning.RequestFor` | wyze-lock-airbnb.py:101-109 | A booking's request goes to the home's lock with the guest's code. |
| `Provisioning.CreateEach` | wyze-lock-airbnb.py:96-109 | The k-th create request is the k-th booking's; a completed run made one per booking; nothing is caught that the source lets through. |
| `Provisioning.CreateEachCompletes` | wyze-lock-airbnb.py:71-81 | A run completes exactly when every booking stamps and no create raises anything but WyzeApiError. |
| `Provisioning.CreateEachFailsAtFirst` | wyze-lock-airbnb.py:99-109 | A run cut short carries the exception of the first booking that stops the loop: stamping's, or else create's. |
| `Provisioning.HomeRun` | wyze-lock-airbnb.py:97-109 | A failed feed ends the turn with its exception; otherwise the k-th request is the k-th booking's, on the home's lock, and a completed turn makes one per booking. |
| `Provisioning.RunHomes` | wyze-lock-airbnb.py:96-97 | Every request of the outer loop comes from some home's turn, and the loop catches nothing itself. |
| `Provisioning.RunHomesCompletes` | wyze-lock-airbnb.py:96-97 | The outer loop completes exactly when every home's turn does. |
| `Provisioning.PerHome` | wyze-lock-airbnb.py:96-97 | One entry per home, in home order: that home's requests. |
| `Provisioning.RunHomesPerHome` | wyze-lock-airbnb.py:96-97 | A completed loop's requests are the homes' requests concatenated in home order. |
| `Provisioning.RunHomesFailsAtFirst` | wyze-lock-airbnb.py:96-97 | A loop cut short ends as the first home whose turn fails, every earlier home having gone through. |
| `Provisioning.ProcessBookings` | wyze-lock-airbnb.py:96-109 | Every request is named "...days" and goes to some home's lock; nothing is caught at this level. |
| `Provisioning.ProcessBookingsCompletes` | wyze-lock-airbnb.py:96-109 | A run completes exactly when every home's feed is fetched and all its bookings go on. |
| `Provisioning.ProcessBookingsPerHome` | wyze-lock-airbnb.py:96-109 | A completed run's requests are, home by home in order, that home's bookings' requests on that home's lock. |
| `Provisioning.ProcessBookingsCount` | wyze-lock-airbnb.py:96-109 | A completed run makes exactly one create request per booking of all the feeds. |
| `Provisioning.ProcessBookingsFailsAtFirst` | wyze-lock-airbnb.py:96-109 | A run cut short carries the first failing home's exception (its feed's, a stamp's or a create's), every earlier home having gone through. |
| `Provisioning.CollidingStaysBothCreated` | wyze-lock-airbnb.py:96-109 | Two stays with the same name both get a create request; nothing checks the keys already on the lock. |
| `Provisioning.MondayStayLabel` | wyze-lock-airbnb.py:61-62 | Monday 2024-06-10 15:00 to 2024-06-13 11:00 is named "Mon-2days". |
| `Revocation.EndTimeOf` | wyze-lock-airbnb.py:86 | A missing periodicity raises AttributeError and a None end time TypeError; what the model's parser accepts is exactly the text create writes for the instant. |
| `Revocation.Expired` | wyze-lock-airbnb.py:86 | A key is deleted when its name ends in "days" and its end time parses to an instant strictly earlier than the cutoff. |
| `Revocation.SweepKeys` | wyze-lock-airbnb.py:85-94 | Only listed, expired "...days" keys are deleted; the loop never ends in a caught exception. |
| `Revocation.SweepSelectsExpired` | wyze-lock-airbnb.py:86 | A completed pass attempts exactly the keys named "...days" whose end is strictly earlier than the cutoff. |
| `Revocation.ExpiredKeys` | wyze-lock-airbnb.py:85-86 | The expired keys of a listing, in listing order. |
| `Revocation.SweepIsFilter` | wyze-lock-airbnb.py:85-94 | A completed pass attempts the expired keys in listing order, each as often as it is listed. |
| `Revocation.UnreadableEndStopsSweep` | wyze-lock-airbnb.py:85-86 | A "...days" key without a readable end time ends the pass, and no key after it is attempted. |
| `Revocation.SweepCompletes` | wyze-lock-airbnb.py:85-94 | A failed delete does not stop the loop; only an unparsable end time or a non-API exception does. |
| `Revocation.DeleteAccessCodes` | wyze-lock-airbnb.py:83-94 | A failing key listing propagates; every attempted key is an expired key of the lock's own listing. |
| `Revocation.LockCleanup` | wyze-lock-airbnb.py:113-114 | Each deletion of a home's turn targets that home's lock with an expired key from that lock's listing. |
| `Revocation.LockCleanupSelectsExpired` | wyze-lock-airbnb.py:83-94 | A completed turn attempts exactly the lock's expired keys, in listing order. |
| `Revocation.CleanupAccessCodes` | wyze-lock-airbnb.py:111-114 | One `now` is the cutoff for every home; each deletion targets some home's lock with an expired key from that lock's own listing. |
| `Revocation.CleanupSelectsExpired` | wyze-lock-airbnb.py:111-114 | A cleanup completes exactly when every home's turn does, and then attempts each lock's expired keys, home by home in order, each home reading its lock's listing as the same server reply (see Left out for homes sharing a lock). |
| `Revocation.CleanupStopsAtFirst` | wyze-lock-airbnb.py:111-114 | A cleanup cut short ends as the first home whose turn fails. |
| `Revocation.NothingDeletedAfterFailure` | wyze-lock-airbnb.py:111-114 | Once a home's turn fails, no later home's lock is touched. |
| `Revocation.CreatedKeyExpiry` | wyze-lock-airbnb.py:67-86 | A created key is deleted exactly when its check-out, cut to the second, is earlier than the cutoff. |
| `Revocation.FutureKeyKept` | wyze-lock-airbnb.py:86 | A key ending at or after the cutoff is never deleted. |
| `Revocation.TuesdayKeyExpired` | wyze-lock-airbnb.py:86 | "Tue-2days" ending 2024-06-04 11:00 is expired at 2024-06-05 00:00. |
| `Credentials.StoreInEnviron` | temp-single.py:69-70 | Both entries take the new pair exactly when both tokens are strings; a None raises after the earlier write. |
| `Credentials.RefreshByStatus` | debug-pin-set.py:37-46 | A pair comes back exactly on a 200 reply with both tokens, and then it is in the environment; any other status raises. |
| `Credentials.RefreshRaisingForStatus` | temp-single.py:44-54 | A 4xx/5xx reply raises HTTPError; a pair comes back exactly when the body has the tokens; nothing is stored. |
| `Credentials.GetClient` | debug-pin-set.py:49-65 | The probe is the first call and at most one refresh follows. |
| `Credentials.IsExpiry` | debug-pin-set.py:55 | A probe error counts as an expiry when its text contains "AccessTokenError" or "access token expired". |
| `Credentials.ValidTokenKept` | debug-pin-set.py:51-53 | A passing probe gives a client on the current token and leaves the pair alone. |
| `Credentials.RefreshOnlyOnExpiry` | debug-pin-set.py:54-64 | A refresh happens exactly on a WyzeApiError naming an expired token; any other error is re-raised with the pair untouched. |
| `Credentials.FailedRefreshReraisesProbeError` | debug-pin-set.py:57-62 | A refresh failing with an Exception re-raises the original probe error. |
| `Credentials.ClientAfterRefresh` | temp-single.py:64-78 | After a probe error there is a client exactly after an expiry and a refresh that returns a pair; its token and the globals are the new ones. |
| `Credentials.StatusGuardRefreshes` | activate-keypad.py:19-62 | After an expiry there is a client exactly when the refresh answers 200 with both tokens; globals and environment then hold the new pair. |
| `Credentials.RaisingGuardRefreshes` | list-devices.py:37-71 | After an expiry there is a client exactly on a non-4xx/5xx reply with two tokens; both stores then hold them; otherwise the probe error is raised. |
| `TokenRetriever.Missing` | get-access_refresh_token.py:26 | A name is reported missing exactly when it is required and unset or empty. |
| `TokenRetriever.MissingKeepsOrder` | get-access_refresh_token.py:26-28 | The missing names keep the required list's order. |
| `TokenRetriever.CheckEnvVariables` | get-access_refresh_token.py:25-30 | The check passes exactly when every required variable is set and non-empty. |
| `TokenRetriever.RequiredVars` | get-access_refresh_token.py:94-96 | Email and password are always required; the TOTP key exactly with `--mfa`. |
| `TokenRetriever.LoginCall` | get-access_refresh_token.py:35-38 | `totp_key` is passed exactly when it is truthy; the other arguments pass through. |
| `TokenRetriever.PairOf` | get-access_refresh_token.py:40-44 | A pair comes back exactly when the response carries both tokens. |
| `TokenRetriever.UpdateEnvFile` | get-access_refresh_token.py:61-66 | The pair goes to `.env` and the call always ends in SystemExit, leaving globals and environment alone. |
| `TokenRetriever.RefreshViaSdk` | get-access_refresh_token.py:49-59 | The refresh never returns a pair; it exits exactly when it got the tokens. |
| `TokenRetriever.RetrieverGuardExits` | get-access_refresh_token.py:68-87 | After an expiry the guard never yields a client: a successful refresh exits with the pair in `.env`; a failing one re-raises the probe error. |
| `TokenRetriever.Main` | get-access_refresh_token.py:89-119 | A failed settings check returns before any login; a normal end means no login happened. |
| `TokenRetriever.MainLogsInThenExits` | get-access_refresh_token.py:94-110 | With the settings present, one login is made, with the TOTP key exactly under `--mfa`, and a login with tokens ends in SystemExit with the pair in `.env`. |
| `Keypads.IsKeypadModel` | activate-keypad.py:73 | A model is a keypad when its lower-cased text contains "keypad". |
| `Keypads.DescribeAll` | activate-keypad.py:69-76 | Only a device with model text containing "keypad" is reported as a keypad, only a model-less one as unknown; a None model ends the loop with a logged AttributeError. |
| `Keypads.KeypadClassification` | activate-keypad.py:71-76 | In a completed listing a device is a keypad exactly when its model contains "keypad" in any case, and unknown exactly when it has no model. |
| `Keypads.KeypadModelIgnoresCase` | activate-keypad.py:73 | The keypad test ignores letter case. |
| `Keypads.ListDevices` | activate-keypad.py:65-80 | A failed listing is logged; only a non-Exception escapes. |
| `Keypads.CheckAndActivate` | activate-keypad.py:83-95 | "Enabled" is reported exactly when the lock info and its keypad are truthy; a lookup failure is logged. |
| `Keypads.CheckEach` | activate-keypad.py:102-104 | Locks are checked in order, one check per lock when nothing escapes. |
| `Keypads.Main` | activate-keypad.py:97-104 | Nothing is listed when the guard fails, and the guard's error propagates. |
| `Keypads.MainChecksBothLocks` | activate-keypad.py:97-104 | With a client, both configured locks are checked in order and the script ends normally. |
| `PinSet.MatchesAsWritten` | debug-pin-set.py:114 | `re.match(r'^\d{4,8}$')` accepts four to eight digits, optionally followed by one final newline. |
| `PinSet.AsWrittenAcceptsTrailingNewline` | debug-pin-set.py:114 | The written pattern accepts "1234\n", which is not four to eight digits. |
| `PinSet.AsWrittenAgreesWithoutNewline` | debug-pin-set.py:114 | Without a newline the written pattern accepts exactly four to eight digits. |
| `PinSet.TempRequest` | debug-pin-set.py:95-103 | The request has permission ALWAYS with both flags true, the stay name, and a daily window of six-digit times on days 0..6. |
| `PinSet.WindowIsClockTimeOnly` | debug-pin-set.py:99-103 | Two stays get the same window exactly when their clock times agree to the second. |
| `PinSet.CreateWith` | debug-pin-set.py:113-136 | A rejected code raises ValueError before any remote call; otherwise the secret fetch comes first and the create gets the encrypted code. |
| `PinSet.CreateTempAccessCodeAsWritten` | debug-pin-set.py:113-123 | Remote calls happen exactly when the written pattern matches. |
| `PinSet.CreateTempAccessCode` | debug-pin-set.py:113-136 | Remote calls happen exactly for a code of four to eight digits; any other code ends in a logged ValueError. |
| `PinSet.NewlineCodeSent` | debug-pin-set.py:114-129 | As written, "1234\n" is encrypted and sent; the intended check sends nothing. |
| `PinSet.CreateNeverPropagates` | debug-pin-set.py:131-136 | Every Exception from the secret fetch or the create is logged. |
| `PinSet.ListKeypads` | debug-pin-set.py:80-91 | The keypads listed are exactly the devices whose model is "Keypad"; a failed listing lists none. |
| `PinSet.ExactMatchIsNarrower` | debug-pin-set.py:86 | Every model text starting with "Keypad" passes the keypad script's test, but only "Keypad" itself passes the exact match. |
| `PinSet.Main` | debug-pin-set.py:138-155 | A None token raises TypeError before anything else; remote calls need a client. |
| `PinSet.MainSendsNextDayCode` | debug-pin-set.py:151-155 | `main` sends one code named "<weekday>-1days", encrypted from "1238", whose window opens and closes at the current clock time. |
| `GuestCode.TruncDiv` | temp-single.py:25 | `int()` truncates toward zero. |
| `GuestCode.Window` | temp-single.py:25-26 | END_TIME − START_TIME is 86,400,000; START_TIME is a multiple of 1000 and the clock reading cut to the second. |
| `GuestCode.FirstWithMac` | temp-single.py:83 | The device chosen is the first in list order with the MAC; none exactly when no device has it. |
| `GuestCode.GuestRequest` | temp-single.py:98-109 | Code and name go as given, unencrypted, with permission ALWAYS from start to end and no periodicity. |
| `GuestCode.SetGuestAccessCode` | temp-single.py:80-115 | A create is made only at the end of the checks, with the given request; a listing failure is the only early error. |
| `GuestCode.CreateOnlyAfterAllChecks` | temp-single.py:83-95 | The create is called exactly when the first device with the MAC has an enabled keypad; otherwise it stops at the first failing check. |
| `GuestCode.SetGuestNeverPropagates` | temp-single.py:112-115 | Every Exception inside is logged. |
| `GuestCode.Main` | temp-single.py:117-125 | A created request carries the fixed code, the name and the 24-hour window, and needs a client. |
| `GuestCode.MainNeverPropagates` | temp-single.py:121-125 | `main` lets no Exception escape. |
| `LockDevices.ShowAttributes` | list-devices.py:84-91 | Only names without a leading "_" whose values are not callable are printed, with their values. |
| `LockDevices.ShowsExactlyPublicValues` | list-devices.py:84-87 | Without read failures, exactly the public, non-callable attributes are printed. |
| `LockDevices.ShowDevice` | list-devices.py:82-94 | A device's nickname is read first; its failure cuts the device short. |
| `LockDevices.ShowEach` | list-devices.py:81-94 | The k-th report is the k-th device's; only a non-Exception stops the loop. |
| `LockDevices.EveryDeviceShown` | list-devices.py:93-94 | A per-device failure does not stop the devices after it. |
| `LockDevices.ListLockDevicesAsWritten` | list-devices.py:73-98 | As written, every call shows nothing and ends with a logged NameError for `FordServiceClient`. |
| `LockDevices.ListLockDevices` | list-devices.py:77-98 | With the class in scope, fetched devices are shown and a failed fetch is logged. |
| `LockDevices.AsWrittenShowsNothing` | list-devices.py:74-79 | A device the service returns is shown by the corrected listing and not by the written one. |
| `LockDevices.Main` | list-devices.py:100-108 | Devices are shown only with a client, and no Exception escapes. |

## Left out

- HTTP, iCalendar parsing and the Wyze SDK are left out. Their replies are inputs: a parsed component list, reply values, or functions from request to reply.
- The CBC encryption and MD5 hashing of the debug script are foreign cryptography. `encrypt` is a function parameter and cannot fail. At debug-pin-set.py:118-119 the secret lookup, the IV read and `encrypt` all run inside the `try`, and a failure of any of them is logged with no create call made. The model represents every such failure by a failed `secret` reply, which has the same outcome.
- The hourly and daily `schedule` loop and `time.sleep` are left out. `datetime.now()` and `time.time()` are parameters.
- Printing and logging are left out; a report records only what was decided.
- Reading `.env` at start-up is left out. Writing it is the `dotenv` field of `Creds`.
- sendtest.py (SMTP delivery) is not part of this model.
- PinSet.Main: the `list_locks(client)` and `list_keypads(client)` calls at debug-pin-set.py:148-149 are not made. Both only print, and both catch every Exception, so neither changes what `main` does next. `PinSet.ListKeypads` states the keypad selection on its own.
- Bookings.Examine: a missing DTSTART/DTEND, whose `.dt` raises AttributeError, is not modelled; a component always carries a start and an end.
- Bookings.PhoneAt: Python's `\d` also matches non-ASCII decimal digits; the model accepts ASCII digits only.
- PinSet.MatchesAsWritten: Python's `\d` also matches non-ASCII decimal digits, so `re.match(r'^\d{4,8}$')` accepts codes such as four Arabic-Indic digits that the model rejects; the model accepts ASCII digits only.
- Bookings.When: DTSTART and DTEND are taken as naive wall-clock fields. icalendar gives a timezone-aware `.dt` for a TZID or "Z" value, and subtracting aware values in different zones works in UTC; the model does not carry zones, so such a stay's day count and stamped times follow the written fields.
- Text.PyInt: `int()` also accepts surrounding whitespace, a sign and underscores between digits. The model accepts digit runs only.
- Text.Lower: only ASCII letters are lowered.
- Clock.FormatIso: `%Y` is zero-padded to four digits. glibc writes years below 1000 without padding, so for such years the round trip holds only in the model.
- Clock.FormatParseIso: holds of the model's parser only. `strptime` also accepts texts that create never writes, such as "2024-06-04t11:00:00" (the pattern ignores case) and "2024-06- 4T11:00:00" (`%d` admits a space before one digit).
- Revocation.CleanupAccessCodes: server state is not carried between calls. A lock's key listing is a fixed function of its MAC, so a deletion does not change a later listing. In the program each home calls `get_keys` again (wyze-lock-airbnb.py:113-114, via line 82), so when two homes share a lock the second listing is read after the first home's deletions, and an expired key is attempted once. The model attempts it once per home that names the lock. `CleanupSelectsExpired` describes the program exactly when the homes' locks are distinct.
- Provisioning.ProcessBookings: likewise, `reply` is a function of the create request, so identical requests (a booking repeated in a feed) get identical replies, and a code created earlier in the run does not change a later reply.
- Revocation.EndTimeOf: `strptime(..., '%Y-%m-%dT%H:%M:%S')` also accepts spellings such as "2024-06-04t11:00:00" and "2024-6-4T11:00:00", which the model reads as ValueError. For a "...days" key with such an end time the model ends `SweepKeys`, and the cleanup of every later home, where the program compares the end with `now` and may delete the key. End times written by create are never of this kind.
- Clock.ParseIso: `strptime` also accepts single-digit fields such as "2024-6-4T11:00:00", a space before a one-digit field, and a lower-case "t". The model accepts only the 19-character layout that `strftime` writes.
- Revocation.Key: a key's name is taken to be a string. A key whose `name` is None would raise AttributeError at `endswith`; that case is not modelled. A missing periodicity or end time is modelled.
- GuestCode.Window: `time.time()` is a float; the model takes the clock in whole microseconds and leaves out float rounding.
- LockDevices.ShowAttributes: `getattr` is modelled as giving the same value on both reads of an attribute, so the inner `except` never fires.
- TokenRetriever.PairOf: the SDK's tokens are taken to be strings. A None token reaching `set_key` is not modelled.
- In temp-single.py, `device.nickname` is read only for log messages, so reading it cannot fail in the model.
- PinSet.CreateTempAccessCode: the rest of the model uses the intended four-to-eight-digit check; the written pattern is `CreateTempAccessCodeAsWritten` (see Findings).
- LockDevices.Main: the model uses the listing with `FordServiceClient` in scope; the written behaviour is `ListLockDevicesAsWritten` (see Findings).

## Findings

| source | as written | input that shows it | evidently intended | confidence | as-written member | corrected member |
|---|---|---|---|---|---|---|
| debug-pin-set.py:114 | `re.match(r'^\d{4,8}$', access_code)`: `$` also matches before a final newline | access code "1234\n" is encrypted and sent | only four to eight digits pass (`re.fullmatch` or `\Z`) | medium, not executed | `PinSet.CreateTempAccessCodeAsWritten` | `PinSet.CreateTempAccessCode` |
| list-devices.py:74 | `_get_lock_devices` names `FordServiceClient`, which the script never imports | any call of `list_lock_devices` ends in a logged NameError and lists nothing | the lock service client class imported from the SDK, so the devices are listed | high, not executed | `LockDevices.ListLockDevicesAsWritten` | `LockDevices.ListLockDevices` |

=== FILE: api.dfy ===
/** The records the scripts hand to the vendor SDK, and how a remote call
    comes back. The SDK itself is not modelled: each call's reply is an
    input of the function that makes the call. */
module Api {
  import opened Outcomes

  /** `LockKeyPermissionType`: ALWAYS, or left to the SDK's default. */
  datatype PermissionKind = SdkDefault | Always

  /** `LockKeyPermission(...)`; an argument not passed is None. */
  datatype Permission = Permission(
    kind: PermissionKind,
    canUnlock: Option<bool>,
    canLock: Option<bool>,
    begin: Option<int>,
    end: Option<int>)

  /** `LockKeyPeriodicity(...)`, in the two shapes the scripts build. */
  datatype Periodicity =
    | NoPeriodicity
    | Once(startTime: string, endTime: string)
    | Daily(begin: string, end: string, validDays: seq<int>)

  /** The arguments of `create_access_code`. */
  datatype CreateRequest = CreateRequest(
    deviceMac: Option<string>,
    accessCode: string,
    name: string,
    permission: Permission,
    periodicity: Periodicity)

  /** A remote call either returns or raises. */
  datatype Reply = Done | Raised(e: Exc)

  /** Whether `except WyzeApiError` catches the reply's exception. */
  predicate IsApiFailure(r: Reply) {
    r.Raised? && r.e.ApiError?
  }
}

=== FILE: bookings.dfy ===
/** `fetch_airbnb_bookings`: from the components of a parsed iCalendar feed
    to the list of bookings with a guest code. */
module Bookings {
  import opened Outcomes
  import opened Text
  import opened Clock

  /** The value of DTSTART/DTEND: a date-time, or a bare date (VALUE=DATE). */
  datatype When = OnDate(year: int, month: int, day: int) | At(t: DateTime)

  /** One component of `calendar.walk()`; an absent property is None. */
  datatype Component = Component(
    name: string,
    summary: Option<string>,
    description: Option<string>,
    start: When,
    end: When)

  datatype Booking = Booking(checkIn: When, checkOut: When, guestLast4: string)

  /** The reply to the feed request: a transport failure, or a status code
      and the components the body parses into. */
  datatype FeedReply = FeedUnreachable(msg: string) | Feed(status: int, walk: seq<Component>)

  const PhoneLabel: string := "Phone Number (Last 4 Digits): "

  /** `Phone Number \(Last 4 Digits\): (\d{4})` matches at index i. */
  predicate PhoneAt(s: string, i: int) {
    OccursAt(s, PhoneLabel, i) && i + |PhoneLabel| + 4 <= |s|
      && AllDigits(s[i + |PhoneLabel|..i + |PhoneLabel| + 4])
  }

  /** `re.search(...)` from index `from`, returning group 1 of the leftmost match. */
  function SearchPhone(s: string, from: nat): (r: Option<string>)
    ensures r.None? <==> forall i :: from <= i ==> !PhoneAt(s, i)
    ensures r.Some? ==> exists i :: (from <= i && PhoneAt(s, i)
                                     && r.value == s[i + |PhoneLabel|..i + |PhoneLabel| + 4]
                                     && forall j :: from <= j < i ==> !PhoneAt(s, j))
    decreases |s| - from
  {
    if from + |PhoneLabel| + 4 > |s| then None
    else if PhoneAt(s, from) then Some(s[from + |PhoneLabel|..from + |PhoneLabel| + 4])
    else SearchPhone(s, from + 1)
  }

  /** What one component contributes: nothing, a booking, or the TypeError
      that `in` / `re.search` raise on a missing SUMMARY or DESCRIPTION. */
  function Examine(c: Component): (r: Result<Option<Booking>>)
    ensures r.Err? ==> r.error.TypeError?
    ensures r.Ok? && r.value.Some? ==> r.value.value.checkIn == c.start && r.value.value.checkOut == c.end
  {
    if c.name != "VEVENT" then Ok(None)
    else match c.summary
      case None => Err(TypeError("argument of type 'NoneType' is not iterable"))
      case Some(summary) =>
        if !Contains(summary, "Reserved") then Ok(None)
        else match c.description
          case None => Err(TypeError("expected string or bytes-like object"))
          case Some(description) =>
            match SearchPhone(description, 0)
            case None => Ok(None)
            case Some(last4) => Ok(Some(Booking(c.start, c.end, last4)))
  }

  /** A component yields a booking exactly when it is a VEVENT, its SUMMARY
      contains "Reserved" and its DESCRIPTION has the phone pattern; the
      guest code is the leftmost match's four digits. A missing SUMMARY on a
      VEVENT, or a missing DESCRIPTION on a reserved one, raises. */
  lemma ExamineSpec(c: Component)
    ensures Examine(c).Err? <==> (c.name == "VEVENT"
                                  && (c.summary.None? || (Contains(c.summary.value, "Reserved") && c.description.None?)))
    ensures (Examine(c).Ok? && Examine(c).value.Some?)
            <==> (c.name == "VEVENT" && c.summary.Some? && Contains(c.summary.value, "Reserved")
                  && c.description.Some? && exists i :: PhoneAt(c.description.value, i))
    ensures Examine(c).Ok? && Examine(c).value.Some? ==>
              SearchPhone(c.description.value, 0) == Some(Examine(c).value.value.guestLast4)
  {
  }

  /** A booking's guest code is always four ASCII digits. */
  lemma GuestCodeIsFourDigits(c: Component)
    requires Examine(c).Ok? && Examine(c).value.Some?
    ensures |Examine(c).value.value.guestLast4| == 4
    ensures AllDigits(Examine(c).value.value.guestLast4)
  {
  }

  /** The loop over `calendar.walk()`: the bookings in walk order, or the
      first component's exception. */
  function CollectBookings(walk: seq<Component>): (r: Result<seq<Booking>>)
    ensures r.Ok? ==> |r.value| <= |walk|
  {
    if |walk| == 0 then Ok([]) else Prepend(Examine(walk[0]), CollectBookings(walk[1..]))
  }

  /** One loop step: the head's exception wins, then the rest's. */
  function Prepend(head: Result<Option<Booking>>, rest: Result<seq<Booking>>): (r: Result<seq<Booking>>)
    ensures r.Ok? ==> rest.Ok? && |r.value| <= |rest.value| + 1
  {
    if head.Err? then Err(head.error)
    else if rest.Err? then Err(rest.error)
    else if head.value.Some? then Ok([head.value.value] + rest.value)
    else Ok(rest.value)
  }

  /** The walk fails exactly when some component raises, and then with the
      exception of the first such component. */
  lemma {:induction false} CollectFailsAtFirstRaise(walk: seq<Component>)
    ensures CollectBookings(walk).Err? <==> exists i :: 0 <= i < |walk| && Examine(walk[i]).Err?
    ensures CollectBookings(walk).Err? ==>
              exists i :: (0 <= i < |walk| && Examine(walk[i]) == Err(CollectBookings(walk).error)
                           && forall j :: 0 <= j < i ==> Examine(walk[j]).Ok?)
  {
    if |walk| > 0 {
      CollectFailsAtFirstRaise(walk[1..]);
      assert forall i :: 1 <= i < |walk| ==> walk[i] == walk[1..][i - 1];
      var r := CollectBookings(walk);
      if Examine(walk[0]).Ok? && r.Err? {
        var k :| (0 <= k < |walk[1..]| && Examine(walk[1..][k]) == Err(r.error)
                  && forall j :: 0 <= j < k ==> Examine(walk[1..][j]).Ok?);
        assert forall j :: 0 <= j < k + 1 ==> Examine(walk[j]).Ok? by {
          forall j | 0 <= j < k + 1
            ensures Examine(walk[j]).Ok?
          {
            if j > 0 { assert walk[j] == walk[1..][j - 1]; }
          }
        }
        assert Examine(walk[k + 1]) == Err(r.error);
      }
      if exists i :: 0 <= i < |walk| && Examine(walk[i]).Err? {
        var i :| 0 <= i < |walk| && Examine(walk[i]).Err?;
        if i > 0 {
          assert Examine(walk[1..][i - 1]).Err?;
        }
      }
    }
  }

  /** On success the bookings are exactly those of the accepted components. */
  lemma {:induction false} CollectSoundComplete(walk: seq<Component>, b: Booking)
    requires CollectBookings(walk).Ok?
    ensures b in CollectBookings(walk).value <==> exists c :: c in walk && Examine(c) == Ok(Some(b))
  {
    if |walk| > 0 {
      CollectSoundComplete(walk[1..], b);
      assert forall c :: c in walk <==> c == walk[0] || c in walk[1..];
    }
  }

  /** Bookings keep calendar-walk order: collecting a walk is collecting its
      parts one after the other. */
  lemma {:induction false} CollectConcat(a: seq<Component>, b: seq<Component>)
    requires CollectBookings(a).Ok? && CollectBookings(b).Ok?
    ensures CollectBookings(a + b) == Ok(CollectBookings(a).value + CollectBookings(b).value)
  {
    if |a| > 0 {
      assert (a + b)[0] == a[0];
      assert (a + b)[1..] == a[1..] + b;
      var h := Examine(a[0]);
      assert CollectBookings(a) == Prepend(h, CollectBookings(a[1..]));
      assert CollectBookings(a + b) == Prepend(h, CollectBookings(a[1..] + b));
      CollectConcat(a[1..], b);
      var x, y := CollectBookings(a[1..]).value, CollectBookings(b).value;
      if h.value.Some? {
        assert [h.value.value] + (x + y) == ([h.value.value] + x) + y;
      }
    } else {
      assert a + b == b;
      assert CollectBookings(a) == Ok([]);
      assert [] + CollectBookings(b).value == CollectBookings(b).value;
    }
  }

  /** `fetch_airbnb_bookings(url)`: `raise_for_status()` rejects 4xx/5xx
      replies before the body is looked at. */
  function FetchBookings(reply: FeedReply): (r: Result<seq<Booking>>)
    ensures reply.FeedUnreachable? ==> r == Err(TransportError(reply.msg))
    ensures reply.Feed? && 400 <= reply.status < 600 ==> r == Err(HttpError(reply.status))
    ensures reply.Feed? && !(400 <= reply.status < 600) ==> r == CollectBookings(reply.walk)
  {
    match reply
    case FeedUnreachable(msg) => Err(TransportError(msg))
    case Feed(status, walk) =>
      if 400 <= status < 600 then Err(HttpError(status)) else CollectBookings(walk)
  }

  /** A "Reserved" event whose description carries the phone digits 4821
      yields one booking with guest code "4821". */
  lemma ReservedEventScenario(start: When, end: When)
    ensures CollectBookings([Component("VEVENT", Some("Reserved"),
                                       Some("Guest. " + PhoneLabel + "4821" + " thanks"), start, end)])
            == Ok([Booking(start, end, "4821")])
  {
    var d := "Guest. " + PhoneLabel + "4821" + " thanks";
    assert d[7..7 + |PhoneLabel|] == PhoneLabel;
    assert d[7 + |PhoneLabel|..7 + |PhoneLabel| + 4] == "4821";
    assert PhoneAt(d, 7);
    assert forall j :: 0 <= j < 7 ==> !PhoneAt(d, j) by {
      forall j | 0 <= j < 7
        ensures !PhoneAt(d, j)
      {
        assert d[j] != PhoneLabel[0];
      }
    }
    var r := SearchPhone(d, 0);
    assert r.Some?;
    var i :| (0 <= i && PhoneAt(d, i) && r.value == d[i + |PhoneLabel|..i + |PhoneLabel| + 4]
              && forall j :: 0 <= j < i ==> !PhoneAt(d, j));
    assert i == 7;
    ContainsSpec("Reserved", "Reserved");
    assert OccursAt("Reserved", "Reserved", 0);
    var c := Component("VEVENT", Some("Reserved"), Some(d), start, end);
    assert Examine(c) == Ok(Some(Booking(start, end, "4821")));
    assert [c][1..] == [];
    assert CollectBookings([c]) == Prepend(Examine(c), CollectBookings([]));
    assert [Booking(start, end, "4821")] + [] == [Booking(start, end, "4821")];
  }
}

=== FILE: clock.dfy ===
/** Python's naive `datetime` at the precision the scripts use it:
    proleptic-Gregorian calendar fields with a day ordinal (`toordinal`),
    weekday, comparison, `timedelta.days`, adding one day, and the two
    `strftime` layouts `%Y-%m-%dT%H:%M:%S` and `%H%M%S` with the matching
    `strptime`. */
module Clock {
  import opened Outcomes
  import opened Text

  const MicrosPerDay: int := 86_400_000_000

  /** The fields of a datetime, not yet known to be in range. */
  datatype Fields = Fields(year: int, month: int, day: int, hour: int, minute: int, second: int, micro: int)

  predicate IsLeap(y: int) {
    y % 4 == 0 && (y % 100 != 0 || y % 400 == 0)
  }

  function DaysInMonth(y: int, m: int): (n: int)
    requires 1 <= m <= 12
    ensures 28 <= n <= 31
  {
    if m == 2 then (if IsLeap(y) then 29 else 28)
    else if m == 4 || m == 6 || m == 9 || m == 11 then 30
    else 31
  }

  function DaysInYear(y: int): int {
    if IsLeap(y) then 366 else 365
  }

  /** Python's MINYEAR..MAXYEAR with the usual month and day ranges. */
  predicate ValidDate(y: int, m: int, d: int) {
    1 <= y <= 9999 && 1 <= m <= 12 && 1 <= d <= DaysInMonth(y, m)
  }

  predicate Valid(f: Fields) {
    && ValidDate(f.year, f.month, f.day)
    && 0 <= f.hour < 24 && 0 <= f.minute < 60 && 0 <= f.second < 60
    && 0 <= f.micro < 1_000_000
  }

  /** A `datetime` object: Python cannot construct one out of range. */
  type DateTime = f: Fields | Valid(f) witness Fields(1, 1, 1, 0, 0, 0, 0)

  function DaysBeforeYear(y: int): int {
    var p := y - 1;
    365 * p + p / 4 - p / 100 + p / 400
  }

  function DaysBeforeMonth(y: int, m: int): int
    requires 1 <= m <= 12
  {
    [0, 31, 59, 90, 120, 151, 181, 212, 243, 273, 304, 334][m - 1]
      + (if m > 2 && IsLeap(y) then 1 else 0)
  }

  /** `date.toordinal()`: 0001-01-01 is day 1. */
  function Ordinal(t: DateTime): int {
    DaysBeforeYear(t.year) + DaysBeforeMonth(t.year, t.month) + t.day
  }

  /** Microseconds since midnight. */
  function TimeOfDay(t: DateTime): (us: int)
    ensures 0 <= us < MicrosPerDay
  {
    ((t.hour * 60 + t.minute) * 60 + t.second) * 1_000_000 + t.micro
  }

  /** Microseconds since 0001-01-01T00:00 minus one day: the scale on
      which `timedelta` arithmetic happens. */
  function Instant(t: DateTime): int {
    Ordinal(t) * MicrosPerDay + TimeOfDay(t)
  }

  /** `datetime.__lt__`: Python compares the field tuples. */
  predicate Earlier(a: DateTime, b: DateTime) {
    if a.year != b.year then a.year < b.year
    else if a.month != b.month then a.month < b.month
    else if a.day != b.day then a.day < b.day
    else if a.hour != b.hour then a.hour < b.hour
    else if a.minute != b.minute then a.minute < b.minute
    else if a.second != b.second then a.second < b.second
    else a.micro < b.micro
  }

  /** `datetime.weekday()`: Monday is 0, Sunday is 6. */
  function Weekday(t: DateTime): (w: int)
    ensures 0 <= w < 7
  {
    (Ordinal(t) + 6) % 7
  }

  const WeekdayNames: seq<string> := ["Mon", "Tue", "Wed", "Thu", "Fri", "Sat", "Sun"]

  /** `strftime('%a')` in the C locale. */
  function WeekdayAbbrev(t: DateTime): (s: string)
    ensures |s| == 3 && s == WeekdayNames[Weekday(t)]
  {
    WeekdayNames[Weekday(t)]
  }

  /** `(b - a).days`: the floor of the difference measured in days. */
  function DaysBetween(a: DateTime, b: DateTime): (n: int)
    ensures n * MicrosPerDay <= Instant(b) - Instant(a) < (n + 1) * MicrosPerDay
  {
    (Instant(b) - Instant(a)) / MicrosPerDay
  }

  // ---------------------------------------------------------------------
  // Calendar arithmetic

  lemma {:induction false} DivisionStep(y: int, k: int)
    requires k == 4 || k == 100 || k == 400
    ensures y / k - (y - 1) / k == (if y % k == 0 then 1 else 0)
  {
  }

  lemma {:induction false} LeapByDivisors(y: int)
    ensures y % 100 == 0 ==> y % 4 == 0
    ensures y % 400 == 0 ==> y % 100 == 0
  {
    if y % 100 == 0 {
      assert y == 4 * (25 * (y / 100));
    }
    if y % 400 == 0 {
      assert y == 100 * (4 * (y / 400));
    }
  }

  /** A year contributes exactly its own length to the ordinal count. */
  lemma {:induction false} YearStep(y: int)
    ensures DaysBeforeYear(y + 1) == DaysBeforeYear(y) + DaysInYear(y)
  {
    DivisionStep(y, 4);
    DivisionStep(y, 100);
    DivisionStep(y, 400);
    LeapByDivisors(y);
  }

  lemma {:induction false} YearsMonotone(a: int, b: int)
    requires a <= b
    ensures DaysBeforeYear(a) + (b - a) * 365 <= DaysBeforeYear(b)
    decreases b - a
  {
    if a < b {
      YearsMonotone(a, b - 1);
      YearStep(b - 1);
    }
  }

  lemma MonthStep(y: int, m: int)
    requires 1 <= m < 12
    ensures DaysBeforeMonth(y, m + 1) == DaysBeforeMonth(y, m) + DaysInMonth(y, m)
  {
  }

  lemma MonthsFillYear(y: int)
    ensures DaysBeforeMonth(y, 12) + DaysInMonth(y, 12) == DaysInYear(y)
  {
  }

  lemma {:induction false} MonthsMonotone(y: int, a: int, b: int)
    requires 1 <= a < b <= 12
    ensures DaysBeforeMonth(y, a) + DaysInMonth(y, a) <= DaysBeforeMonth(y, b)
    decreases b - a
  {
    MonthStep(y, a);
    if a + 1 < b {
      MonthsMonotone(y, a + 1, b);
    }
  }

  /** The day of the year never exceeds the year's length. */
  lemma DayOfYearBound(t: DateTime)
    ensures DaysBeforeMonth(t.year, t.month) + t.day <= DaysInYear(t.year)
  {
    if t.month < 12 {
      MonthsMonotone(t.year, t.month, 12);
    }
    MonthsFillYear(t.year);
  }

  /** A date earlier in calendar order has a smaller ordinal. */
  lemma {:induction false} OrdinalMonotone(a: DateTime, b: DateTime)
    requires (a.year, a.month, a.day) != (b.year, b.month, b.day)
    requires a.year < b.year || (a.year == b.year && (a.month < b.month || (a.month == b.month && a.day < b.day)))
    ensures Ordinal(a) < Ordinal(b)
  {
    if a.year < b.year {
      DayOfYearBound(a);
      YearStep(a.year);
      YearsMonotone(a.year + 1, b.year);
    } else if a.month < b.month {
      MonthsMonotone(a.year, a.month, b.month);
    }
  }

  lemma TimeOfDayMonotone(a: DateTime, b: DateTime)
    requires (a.hour, a.minute, a.second, a.micro) != (b.hour, b.minute, b.second, b.micro)
    requires a.hour < b.hour || (a.hour == b.hour && (a.minute < b.minute
      || (a.minute == b.minute && (a.second < b.second || (a.second == b.second && a.micro < b.micro)))))
    ensures TimeOfDay(a) < TimeOfDay(b)
  {
  }

  /** Python's field-wise comparison is the order of instants. */
  lemma {:induction false} EarlierIsInstantOrder(a: DateTime, b: DateTime)
    ensures Earlier(a, b) <==> Instant(a) < Instant(b)
  {
    var da := (a.year, a.month, a.day);
    var db := (b.year, b.month, b.day);
    if da == db {
      if (a.hour, a.minute, a.second, a.micro) == (b.hour, b.minute, b.second, b.micro) {
      } else if Earlier(a, b) {
        TimeOfDayMonotone(a, b);
      } else {
        TimeOfDayMonotone(b, a);
      }
    } else if Earlier(a, b) {
      OrdinalMonotone(a, b);
    } else {
      OrdinalMonotone(b, a);
    }
  }

  /** The number of whole days between two datetimes is the number of
      calendar dates crossed, less one when the later clock time is earlier
      in the day than the first. */
  lemma DaysBetweenByDate(a: DateTime, b: DateTime)
    ensures DaysBetween(a, b)
         == Ordinal(b) - Ordinal(a) - (if TimeOfDay(b) < TimeOfDay(a) then 1 else 0)
  {
    var k := Ordinal(b) - Ordinal(a);
    var n := DaysBetween(a, b);
    assert Instant(b) - Instant(a) == k * MicrosPerDay + (TimeOfDay(b) - TimeOfDay(a));
  }

  /** `t + timedelta(days=1)`: the next calendar date at the same clock
      time, or OverflowError past 9999-12-31. */
  function PlusOneDay(t: DateTime): (r: Result<DateTime>)
    ensures r.Ok? <==> !(t.year == 9999 && t.month == 12 && t.day == 31)
    ensures r.Err? ==> r.error == OverflowError
    ensures r.Ok? ==> Ordinal(r.value) == Ordinal(t) + 1 && TimeOfDay(r.value) == TimeOfDay(t)
  {
    if t.day < DaysInMonth(t.year, t.month) then
      Ok(t.(day := t.day + 1))
    else if t.month < 12 then
      MonthStep(t.year, t.month);
      Ok(t.(month := t.month + 1, day := 1))
    else if t.year < 9999 then
      YearStep(t.year);
      MonthsFillYear(t.year);
      Ok(t.(year := t.year + 1, month := 1, day := 1))
    else
      Err(OverflowError)
  }

  // ---------------------------------------------------------------------
  // strftime / strptime

  /** `t.strftime("%Y-%m-%dT%H:%M:%S")`; the microseconds are not written. */
  function FormatIso(t: DateTime): (s: string)
    ensures |s| == 19
  {
    Fixed(t.year, 4) + "-" + Fixed(t.month, 2) + "-" + Fixed(t.day, 2) + "T"
      + Fixed(t.hour, 2) + ":" + Fixed(t.minute, 2) + ":" + Fixed(t.second, 2)
  }

  /** The layout `%Y-%m-%dT%H:%M:%S` in its canonical 19-character form. */
  predicate IsoShaped(s: string) {
    && |s| == 19
    && s[4] == '-' && s[7] == '-' && s[10] == 'T' && s[13] == ':' && s[16] == ':'
    && AllDigits(s[0..4]) && AllDigits(s[5..7]) && AllDigits(s[8..10])
    && AllDigits(s[11..13]) && AllDigits(s[14..16]) && AllDigits(s[17..19])
  }

  function IsoFields(s: string): Fields
    requires IsoShaped(s)
  {
    Fields(DigitsValue(s[0..4]), DigitsValue(s[5..7]), DigitsValue(s[8..10]),
           DigitsValue(s[11..13]), DigitsValue(s[14..16]), DigitsValue(s[17..19]), 0)
  }

  /** `datetime.strptime(s, "%Y-%m-%dT%H:%M:%S")`: ValueError unless the
      string has the layout and names an existing date and time. */
  function ParseIso(s: string): (r: Result<DateTime>)
    ensures r.Ok? ==> r.value.micro == 0
    ensures r.Err? ==> r.error.ValueError?
  {
    if !IsoShaped(s) then Err(ValueError("time data does not match format"))
    else
      var f := IsoFields(s);
      if Valid(f) then Ok(f) else Err(ValueError("field out of range"))
  }

  /** `t` with its microseconds dropped: what survives a trip through a
      whole-second text layout. */
  function WholeSeconds(t: DateTime): (w: DateTime)
    ensures w.micro == 0 && Instant(w) <= Instant(t) < Instant(w) + 1_000_000
  {
    t.(micro := 0)
  }

  lemma FormatIsoPieces(t: DateTime)
    ensures FormatIso(t)[0..4] == Fixed(t.year, 4)
    ensures FormatIso(t)[5..7] == Fixed(t.month, 2)
    ensures FormatIso(t)[8..10] == Fixed(t.day, 2)
    ensures FormatIso(t)[11..13] == Fixed(t.hour, 2)
    ensures FormatIso(t)[14..16] == Fixed(t.minute, 2)
    ensures FormatIso(t)[17..19] == Fixed(t.second, 2)
    ensures IsoShaped(FormatIso(t))
  {
    var s := FormatIso(t);
    assert s == Fixed(t.year, 4) + "-" + Fixed(t.month, 2) + "-" + Fixed(t.day, 2) + "T"
      + Fixed(t.hour, 2) + ":" + Fixed(t.minute, 2) + ":" + Fixed(t.second, 2);
  }

  /** What `create_access_code` writes, `delete_access_codes` reads back,
      to the second. */
  lemma ParseFormatIso(t: DateTime)
    ensures ParseIso(FormatIso(t)) == Ok(WholeSeconds(t))
  {
    var s := FormatIso(t);
    FormatIsoPieces(t);
    FixedValue(t.year, 4);
    FixedValue(t.month, 2);
    FixedValue(t.day, 2);
    FixedValue(t.hour, 2);
    FixedValue(t.minute, 2);
    FixedValue(t.second, 2);
    assert IsoFields(s) == WholeSeconds(t);
  }

  /** Every string the parser accepts is exactly what the formatter writes
      for the parsed value: the accepted layout has no alternative spellings. */
  lemma FormatParseIso(s: string)
    requires ParseIso(s).Ok?
    ensures FormatIso(ParseIso(s).value) == s
  {
    var t := ParseIso(s).value;
    FormatIsoPieces(t);
    FixedOfValue(s[0..4]);
    FixedOfValue(s[5..7]);
    FixedOfValue(s[8..10]);
    FixedOfValue(s[11..13]);
    FixedOfValue(s[14..16]);
    FixedOfValue(s[17..19]);
    var f := FormatIso(t);
    assert f[0..4] == s[0..4] && f[5..7] == s[5..7] && f[8..10] == s[8..10];
    assert f[11..13] == s[11..13] && f[14..16] == s[14..16] && f[17..19] == s[17..19];
    assert forall i :: 0 <= i < 19 ==> f[i] == s[i] by {
      forall i | 0 <= i < 19
        ensures f[i] == s[i]
      {
        if i < 4 { assert f[i] == f[0..4][i]; assert s[i] == s[0..4][i]; }
        else if 4 < i < 7 { assert f[i] == f[5..7][i - 5]; assert s[i] == s[5..7][i - 5]; }
        else if 7 < i < 10 { assert f[i] == f[8..10][i - 8]; assert s[i] == s[8..10][i - 8]; }
        else if 10 < i < 13 { assert f[i] == f[11..13][i - 11]; assert s[i] == s[11..13][i - 11]; }
        else if 13 < i < 16 { assert f[i] == f[14..16][i - 14]; assert s[i] == s[14..16][i - 14]; }
        else if 16 < i { assert f[i] == f[17..19][i - 17]; assert s[i] == s[17..19][i - 17]; }
      }
    }
  }

  /** `t.strftime("%H%M%S")`: the clock time alone. */
  function FormatHms(t: DateTime): (s: string)
    ensures |s| == 6 && AllDigits(s)
  {
    Fixed(t.hour, 2) + Fixed(t.minute, 2) + Fixed(t.second, 2)
  }

  /** The `%H%M%S` text determines, and is determined by, hour, minute and
      second: the date and the microseconds play no part. */
  lemma FormatHmsExactlyClockTime(a: DateTime, b: DateTime)
    ensures FormatHms(a) == FormatHms(b)
        <==> a.hour == b.hour && a.minute == b.minute && a.second == b.second
  {
    var sa, sb := FormatHms(a), FormatHms(b);
    assert sa[0..2] == Fixed(a.hour, 2) && sa[2..4] == Fixed(a.minute, 2) && sa[4..6] == Fixed(a.second, 2);
    assert sb[0..2] == Fixed(b.hour, 2) && sb[2..4] == Fixed(b.minute, 2) && sb[4..6] == Fixed(b.second, 2);
    FixedValue(a.hour, 2);
    FixedValue(a.minute, 2);
    FixedValue(a.second, 2);
    FixedValue(b.hour, 2);
    FixedValue(b.minute, 2);
    FixedValue(b.second, 2);
  }
}

=== FILE: credentials.dfy ===
/** The credential guard each script runs before anything else: probe the
    stored access token with a device listing; on an expiry error refresh
    once and build the client on the new token; otherwise re-raise the
    probe's own error. The scripts share this `get_client` shape but refresh
    in different ways; the two HTTP refreshes live here, the SDK one with the
    token retriever. */
module Credentials {
  import opened Outcomes
  import opened Text
  import opened Api

  /** The WYZE_ACCESS_TOKEN / WYZE_REFRESH_TOKEN pair; None is an unset value. */
  datatype Tokens = Tokens(access: Option<string>, refresh: Option<string>)

  /** Where the pair lives: the script's globals, `os.environ`, and the
      `.env` file. */
  datatype Creds = Creds(globals: Tokens, environ: Tokens, dotenv: Tokens)

  /** The JSON body of a refresh reply: `data.access_token` and
      `data.refresh_token` (None is JSON null), a body without them, or text
      that is not JSON. */
  datatype Body = TokenBody(access: Option<string>, refresh: Option<string>) | NoTokens | NotJson

  /** The reply to the refresh POST. */
  datatype HttpReply = Unreachable(msg: string) | HttpResponse(status: int, body: Body)

  /** A refresh attempt's value (the new pair) or exception, and where the
      pair stands afterwards. */
  datatype Refresh = Refresh(result: Result<Tokens>, after: Creds)

  /** `os.environ[...] = access; os.environ[...] = refresh`: assigning None
      raises TypeError, after the assignments before it took effect. */
  datatype Stored = Stored(after: Creds, failure: Option<Exc>)

  function StoreInEnviron(c: Creds, pair: Tokens): (r: Stored)
    ensures r.failure.None? <==> pair.access.Some? && pair.refresh.Some?
    ensures r.failure.None? ==> r.after == c.(environ := pair)
    ensures r.after.globals == c.globals && r.after.dotenv == c.dotenv
  {
    var typeError := TypeError("str expected, not NoneType");
    if pair.access.None? then Stored(c, Some(typeError))
    else
      var first := c.(environ := c.environ.(access := pair.access));
      if pair.refresh.None? then Stored(first, Some(typeError))
      else Stored(first.(environ := pair), None)
  }

  /** The pair read out of a JSON body: `data['data'][...]` raises KeyError
      when the keys are absent. */
  function TokensOf(body: Body): (r: Result<Tokens>)
    ensures r.Ok? <==> body.TokenBody?
  {
    match body
    case NotJson => Err(JsonError)
    case NoTokens => Err(KeyError("data"))
    case TokenBody(a, r) => Ok(Tokens(a, r))
  }

  /** `refresh_access_token` of the pin-setting and keypad scripts: only a
      200 reply counts, and the function itself stores the new pair in the
      environment; any other status raises a plain Exception. */
  function RefreshByStatus(c: Creds, reply: HttpReply): (r: Refresh)
    ensures r.result.Ok? <==> reply.HttpResponse? && reply.status == 200 && reply.body.TokenBody?
                              && reply.body.access.Some? && reply.body.refresh.Some?
    ensures r.result.Ok? ==> r.result.value == Tokens(reply.body.access, reply.body.refresh)
                             && r.after == c.(environ := r.result.value)
    ensures reply.HttpResponse? && reply.status != 200 ==> r == Refresh(Err(RefreshFailed(reply.status)), c)
    ensures r.result.Err? ==> IsException(r.result.error) && r.after.globals == c.globals
  {
    match reply
    case Unreachable(msg) => Refresh(Err(TransportError(msg)), c)
    case HttpResponse(status, body) =>
      if status != 200 then Refresh(Err(RefreshFailed(status)), c)
      else match TokensOf(body)
        case Err(e) => Refresh(Err(e), c)
        case Ok(pair) =>
          var stored := StoreInEnviron(c, pair);
          if stored.failure.Some? then Refresh(Err(stored.failure.value), stored.after)
          else Refresh(Ok(pair), stored.after)
  }

  /** `refresh_access_token` of the single-code and device-listing scripts:
      `raise_for_status()` rejects 4xx and 5xx replies, every
      RequestException is logged and re-raised, and nothing is stored. */
  function RefreshRaisingForStatus(c: Creds, reply: HttpReply): (r: Refresh)
    ensures r.after == c
    ensures r.result.Ok? <==> reply.HttpResponse? && !(400 <= reply.status < 600) && reply.body.TokenBody?
    ensures r.result.Ok? ==> r.result.value == Tokens(reply.body.access, reply.body.refresh)
    ensures reply.HttpResponse? && 400 <= reply.status < 600 ==> r.result == Err(HttpError(reply.status))
    ensures r.result.Err? ==> IsException(r.result.error)
  {
    match reply
    case Unreachable(msg) => Refresh(Err(TransportError(msg)), c)
    case HttpResponse(status, body) =>
      if 400 <= status < 600 then Refresh(Err(HttpError(status)), c)
      else Refresh(TokensOf(body), c)
  }

  /** The text test on `str(e)` that decides a WyzeApiError means expiry. */
  predicate IsExpiry(msg: string) {
    Contains(msg, "AccessTokenError") || Contains(msg, "access token expired")
  }

  /** The remote calls the guard makes, in order. */
  datatype Call = ProbeCall | RefreshCall

  /** The client's token (or the exception `get_client` raised), the pair
      afterwards, and the calls made. */
  datatype Guard = Guard(client: Result<Option<string>>, creds: Creds, calls: seq<Call>)

  /** `get_client()`, given the probe's reply and the script's refresh.
      `storesPair` says whether `get_client` itself writes the refreshed pair
      into `os.environ`; an exception the refresh step raises that `except
      Exception` catches is replaced by the probe's error. */
  function GetClient(c: Creds, probe: Reply, refresh: Creds -> Refresh, storesPair: bool): (g: Guard)
    ensures 1 <= |g.calls| <= 2 && g.calls[0] == ProbeCall
    ensures |g.calls| == 2 ==> g.calls[1] == RefreshCall
  {
    match probe
    case Done => Guard(Ok(c.globals.access), c, [ProbeCall])
    case Raised(e) =>
      if !e.ApiError? || !IsExpiry(e.msg) then Guard(Err(e), c, [ProbeCall])
      else
        var attempt := refresh(c);
        if attempt.result.Err? then
          var x := attempt.result.error;
          Guard(Err(if IsException(x) then e else x), attempt.after, [ProbeCall, RefreshCall])
        else
          var pair := attempt.result.value;
          var renewed := attempt.after.(globals := pair);
          if !storesPair then Guard(Ok(pair.access), renewed, [ProbeCall, RefreshCall])
          else
            var stored := StoreInEnviron(renewed, pair);
            if stored.failure.Some? then Guard(Err(e), stored.after, [ProbeCall, RefreshCall])
            else Guard(Ok(pair.access), stored.after, [ProbeCall, RefreshCall])
  }

  /** A token that passes the probe is used as it is: one call, nothing
      rewritten. */
  lemma ValidTokenKept(c: Creds, refresh: Creds -> Refresh, storesPair: bool)
    ensures GetClient(c, Done, refresh, storesPair) == Guard(Ok(c.globals.access), c, [ProbeCall])
  {
  }

  /** The guard refreshes exactly when the probe raises a WyzeApiError whose
      text names an expired token, and then only once, without probing
      again; any other probe error comes back unchanged with the pair
      untouched. */
  lemma RefreshOnlyOnExpiry(c: Creds, probe: Reply, refresh: Creds -> Refresh, storesPair: bool)
    ensures RefreshCall in GetClient(c, probe, refresh, storesPair).calls
            <==> probe.Raised? && probe.e.ApiError? && IsExpiry(probe.e.msg)
    ensures probe.Raised? && !(probe.e.ApiError? && IsExpiry(probe.e.msg))
            ==> GetClient(c, probe, refresh, storesPair) == Guard(Err(probe.e), c, [ProbeCall])
  {
  }

  /** After an expiry, a refresh that fails with an Exception makes the guard
      raise the original probe error, never the refresh's own. */
  lemma FailedRefreshReraisesProbeError(c: Creds, probe: Reply, refresh: Creds -> Refresh, storesPair: bool)
    requires probe.Raised? && probe.e.ApiError? && IsExpiry(probe.e.msg)
    requires refresh(c).result.Err? && IsException(refresh(c).result.error)
    ensures GetClient(c, probe, refresh, storesPair).client == Err(probe.e)
  {
  }

  /** The guard yields a client exactly when the probe passes or an expiry is
      followed by a refresh that returns a pair (which, where `get_client`
      stores it, must hold two strings); that client carries the new access
      token, and the script's globals now hold the new pair. */
  lemma ClientAfterRefresh(c: Creds, probe: Reply, refresh: Creds -> Refresh, storesPair: bool)
    requires probe.Raised?
    ensures GetClient(c, probe, refresh, storesPair).client.Ok?
            <==> probe.e.ApiError? && IsExpiry(probe.e.msg) && refresh(c).result.Ok?
                 && (storesPair ==> refresh(c).result.value.access.Some? && refresh(c).result.value.refresh.Some?)
    ensures GetClient(c, probe, refresh, storesPair).client.Ok? ==>
              GetClient(c, probe, refresh, storesPair).client.value == refresh(c).result.value.access
              && GetClient(c, probe, refresh, storesPair).creds.globals == refresh(c).result.value
  {
  }

  /** The pin-setting and keypad guard: after an expiry it has a client
      exactly when the refresh POST answers 200 with both tokens, and then
      the globals and the environment both hold the new pair. */
  lemma StatusGuardRefreshes(c: Creds, msg: string, reply: HttpReply)
    requires IsExpiry(msg)
    ensures GetClient(c, Raised(ApiError(msg)), c => RefreshByStatus(c, reply), false).client.Ok?
            <==> reply.HttpResponse? && reply.status == 200 && reply.body.TokenBody?
                 && reply.body.access.Some? && reply.body.refresh.Some?
    ensures GetClient(c, Raised(ApiError(msg)), c => RefreshByStatus(c, reply), false).client.Err? ==>
              GetClient(c, Raised(ApiError(msg)), c => RefreshByStatus(c, reply), false).client == Err(ApiError(msg))
    ensures GetClient(c, Raised(ApiError(msg)), c => RefreshByStatus(c, reply), false).client.Ok? ==>
              var pair := Tokens(reply.body.access, reply.body.refresh);
              GetClient(c, Raised(ApiError(msg)), c => RefreshByStatus(c, reply), false).creds
                == Creds(pair, pair, c.dotenv)
  {
  }

  /** The single-code and device-listing guard: after an expiry it has a
      client exactly when the refresh reply is not 4xx/5xx and carries two
      token strings; `get_client` then stores the pair in the environment
      itself. A 4xx/5xx reply surfaces as the original probe error. */
  lemma RaisingGuardRefreshes(c: Creds, msg: string, reply: HttpReply)
    requires IsExpiry(msg)
    ensures GetClient(c, Raised(ApiError(msg)), c => RefreshRaisingForStatus(c, reply), true).client.Ok?
            <==> reply.HttpResponse? && !(400 <= reply.status < 600) && reply.body.TokenBody?
                 && reply.body.access.Some? && reply.body.refresh.Some?
    ensures GetClient(c, Raised(ApiError(msg)), c => RefreshRaisingForStatus(c, reply), true).client.Err? ==>
              GetClient(c, Raised(ApiError(msg)), c => RefreshRaisingForStatus(c, reply), true).client == Err(ApiError(msg))
    ensures GetClient(c, Raised(ApiError(msg)), c => RefreshRaisingForStatus(c, reply), true).client.Ok? ==>
              var pair := Tokens(reply.body.access, reply.body.refresh);
              GetClient(c, Raised(ApiError(msg)), c => RefreshRaisingForStatus(c, reply), true).creds
                == Creds(pair, pair, c.dotenv)
  {
  }
}

=== FILE: guestcode.dfy ===
/** The single-code script: a fixed guest code on the first home's lock,
    valid for 24 hours from start-up, set only after checking that the
    lock is known and has an enabled keypad. */
module GuestCode {
  import opened Outcomes
  import opened Api
  import opened Credentials

  const MillisPerDay: int := 24 * 60 * 60 * 1000

  /** Python `int(x)` on a quotient: truncation toward zero, unlike Dafny's
      Euclidean division on negative numbers. */
  function TruncDiv(x: int, d: int): (q: int)
    requires d > 0
    ensures x >= 0 ==> q * d <= x < q * d + d
    ensures x < 0 ==> q * d - d < x <= q * d
  {
    if x >= 0 then x / d else -((-x) / d)
  }

  /** START_TIME and END_TIME for a clock reading of `clockMicros`
      microseconds since the epoch: whole seconds, in milliseconds. */
  function Window(clockMicros: int): (w: (int, int))
    ensures w.1 - w.0 == MillisPerDay
    ensures w.0 % 1000 == 0
    ensures clockMicros >= 0 ==> w.0 * 1000 <= clockMicros < w.0 * 1000 + 1_000_000
  {
    var start := TruncDiv(clockMicros, 1_000_000) * 1000;
    (start, start + MillisPerDay)
  }

  /** The keypad as the device object shows it: no `keypad` attribute, a
      None one, or a keypad with its `is_enabled` truthiness. */
  datatype KeypadAttr = NoKeypadAttr | NoneKeypad | KeypadOf(isEnabled: bool)

  datatype Lock = Lock(mac: Option<string>, nickname: string, keypad: KeypadAttr)

  /** `next((d for d in devices if d.mac == lock_mac), None)`, as an index. */
  function FirstWithMac(devices: seq<Lock>, mac: Option<string>): (r: Option<nat>)
    ensures r.Some? ==> r.value < |devices| && devices[r.value].mac == mac
                        && forall j :: 0 <= j < r.value ==> devices[j].mac != mac
    ensures r.None? <==> forall j :: 0 <= j < |devices| ==> devices[j].mac != mac
  {
    if |devices| == 0 then None
    else if devices[0].mac == mac then Some(0)
    else match FirstWithMac(devices[1..], mac)
      case None =>
        assert forall j :: 1 <= j < |devices| ==> devices[j] == devices[1..][j - 1];
        None
      case Some(i) => Some(i + 1)
  }

  /** Where the run stopped: before the listing (`main`'s guard), or at a
      step of `set_guest_access_code`. */
  datatype Stop = NoClient | ListingFailed | NoDevice | NoKeypad | KeypadDisabled | Requested

  datatype GuestRun = GuestRun(created: Option<CreateRequest>, stop: Stop, ending: Ending)

  /** The request: code and name as given, unencrypted, and a permission
      ALWAYS bounded by the start and end milliseconds. */
  function GuestRequest(mac: Option<string>, code: string, name: string, start: int, end: int): (req: CreateRequest)
    ensures req.deviceMac == mac && req.accessCode == code && req.name == name
    ensures req.permission.kind == Always && req.permission.begin == Some(start) && req.permission.end == Some(end)
    ensures req.permission.canUnlock.None? && req.permission.canLock.None? && req.periodicity.NoPeriodicity?
  {
    CreateRequest(mac, code, name, Permission(Always, None, None, Some(start), Some(end)), NoPeriodicity)
  }

  /** `set_guest_access_code(client, lock_mac, access_code, code_name,
      start_time, end_time)`, given the device listing and the create reply.
      The checks run in order and the first that fails returns early. */
  function SetGuestAccessCode(mac: Option<string>, code: string, name: string, start: int, end: int,
                              devices: Result<seq<Lock>>, reply: CreateRequest -> Reply): (r: GuestRun)
    ensures r.created.Some? <==> r.stop == Requested
    ensures r.created.Some? ==> r.created.value == GuestRequest(mac, code, name, start, end)
    ensures r.stop == ListingFailed <==> devices.Err?
    ensures r.stop != NoClient
    ensures !r.ending.Normal? ==> r.stop in {ListingFailed, Requested}
  {
    match devices
    case Err(e) => GuestRun(None, ListingFailed, HandleException(e))
    case Ok(locks) =>
      match FirstWithMac(locks, mac)
      case None => GuestRun(None, NoDevice, Normal)
      case Some(i) =>
        match locks[i].keypad
        case NoKeypadAttr => GuestRun(None, NoKeypad, Normal)
        case NoneKeypad => GuestRun(None, NoKeypad, Normal)
        case KeypadOf(enabled) =>
          if !enabled then GuestRun(None, KeypadDisabled, Normal)
          else
            var req := GuestRequest(mac, code, name, start, end);
            match reply(req)
            case Done => GuestRun(Some(req), Requested, Normal)
            case Raised(e) => GuestRun(Some(req), Requested, HandleException(e))
  }

  /** The create is called exactly when a device with the MAC exists and the
      first such device has a keypad that is enabled; otherwise the run
      stops at the first check that fails. */
  lemma CreateOnlyAfterAllChecks(mac: Option<string>, code: string, name: string, start: int, end: int,
                                 devices: Result<seq<Lock>>, reply: CreateRequest -> Reply)
    ensures SetGuestAccessCode(mac, code, name, start, end, devices, reply).created.Some?
            <==> devices.Ok? && FirstWithMac(devices.value, mac).Some?
                 && devices.value[FirstWithMac(devices.value, mac).value].keypad.KeypadOf?
                 && devices.value[FirstWithMac(devices.value, mac).value].keypad.isEnabled
    ensures devices.Ok? && (forall j :: 0 <= j < |devices.value| ==> devices.value[j].mac != mac)
            ==> SetGuestAccessCode(mac, code, name, start, end, devices, reply).stop == NoDevice
    ensures devices.Ok? && FirstWithMac(devices.value, mac).Some?
            && !devices.value[FirstWithMac(devices.value, mac).value].keypad.KeypadOf?
            ==> SetGuestAccessCode(mac, code, name, start, end, devices, reply).stop == NoKeypad
  {
  }

  /** Every exception inside is logged: the function only lets through an
      exit signal. */
  lemma SetGuestNeverPropagates(mac: Option<string>, code: string, name: string, start: int, end: int,
                                devices: Result<seq<Lock>>, reply: CreateRequest -> Reply)
    requires devices.Err? ==> IsException(devices.error)
    requires forall req :: reply(req).Raised? ==> IsException(reply(req).e)
    ensures !SetGuestAccessCode(mac, code, name, start, end, devices, reply).ending.Propagated?
  {
  }

  const AccessCode: string := "1234"
  const AccessCodeName: string := "Testtt"

  /** `main()`: the guard, then the code for the lock; `except Exception`
      logs a guard failure. */
  function Main(c: Creds, probe: Reply, refreshReply: HttpReply, lockMac: Option<string>, clockMicros: int,
                devices: Result<seq<Lock>>, reply: CreateRequest -> Reply): (r: GuestRun)
    ensures r.created.Some? ==>
              r.created.value == GuestRequest(lockMac, AccessCode, AccessCodeName, Window(clockMicros).0, Window(clockMicros).1)
    ensures r.created.Some? ==> GetClient(c, probe, cc => RefreshRaisingForStatus(cc, refreshReply), true).client.Ok?
  {
    var guard := GetClient(c, probe, cc => RefreshRaisingForStatus(cc, refreshReply), true);
    if guard.client.Err? then GuestRun(None, NoClient, HandleException(guard.client.error))
    else
      SetGuestAccessCode(lockMac, AccessCode, AccessCodeName, Window(clockMicros).0, Window(clockMicros).1,
                         devices, reply)
  }

  /** `main` ends normally or with a logged exception: with a probe, a
      listing and a create that raise only Exceptions, nothing escapes. */
  lemma MainNeverPropagates(c: Creds, probe: Reply, refreshReply: HttpReply, lockMac: Option<string>, clockMicros: int,
                            devices: Result<seq<Lock>>, reply: CreateRequest -> Reply)
    requires probe.Raised? ==> IsException(probe.e)
    requires devices.Err? ==> IsException(devices.error)
    requires forall req :: reply(req).Raised? ==> IsException(reply(req).e)
    ensures !Main(c, probe, refreshReply, lockMac, clockMicros, devices, reply).ending.Propagated?
  {
    SetGuestNeverPropagates(lockMac, AccessCode, AccessCodeName, Window(clockMicros).0, Window(clockMicros).1,
                            devices, reply);
  }
}

=== FILE: keypads.dfy ===
/** The keypad script: list every device, telling keypads apart by their
    product model, then look up each configured lock's keypad. Nothing is
    switched on: the activation call is not part of the script. */
module Keypads {
  import opened Outcomes
  import opened Text
  import opened Api
  import opened Credentials

  /** The `product_model` entry of a device's attribute dictionary: absent,
      None, or text. */
  datatype Model = NoModel | NoneModel | ModelText(text: string)

  datatype Device = Device(nickname: Option<string>, mac: Option<string>, model: Model)

  /** `'keypad' in product_model.lower()`. */
  predicate IsKeypadModel(text: string) {
    Contains(Lower(text), "keypad")
  }

  /** What the listing prints about a device: "Unknown device type", its
      description line, or "Keypad found". */
  datatype Report = Unknown(device: Device) | Described(device: Device) | KeypadFound(device: Device)

  datatype Listing = Listing(reports: seq<Report>, ending: Ending)

  /** The loop of `list_devices`. A None model is described and then fails
      on `.lower()` with AttributeError, which ends the whole loop. */
  function DescribeAll(devices: seq<Device>): (r: Listing)
    ensures r.ending.Normal? || r.ending == Handled(AttributeError("lower"))
    ensures forall k :: 0 <= k < |r.reports| ==> r.reports[k].device in devices
    ensures forall k :: 0 <= k < |r.reports| && r.reports[k].Unknown? ==> r.reports[k].device.model.NoModel?
    ensures forall k :: 0 <= k < |r.reports| && r.reports[k].KeypadFound? ==>
              r.reports[k].device.model.ModelText? && IsKeypadModel(r.reports[k].device.model.text)
  {
    if |devices| == 0 then Listing([], Normal)
    else
      var d := devices[0];
      assert forall x :: x in devices[1..] ==> x in devices;
      match d.model
      case NoModel =>
        var rest := DescribeAll(devices[1..]);
        Listing([Unknown(d)] + rest.reports, rest.ending)
      case NoneModel => Listing([Described(d)], Handled(AttributeError("lower")))
      case ModelText(t) =>
        var rest := DescribeAll(devices[1..]);
        Listing([Described(d)] + (if IsKeypadModel(t) then [KeypadFound(d)] else []) + rest.reports, rest.ending)
  }

  /** When the listing runs through, a device is reported as a keypad
      exactly when its model text contains "keypad" in any letter case, and
      as unknown exactly when it has no model. */
  lemma {:induction false} KeypadClassification(devices: seq<Device>, d: Device)
    requires DescribeAll(devices).ending.Normal?
    ensures KeypadFound(d) in DescribeAll(devices).reports
            <==> d in devices && d.model.ModelText? && IsKeypadModel(d.model.text)
    ensures Unknown(d) in DescribeAll(devices).reports <==> d in devices && d.model.NoModel?
  {
    if |devices| > 0 {
      KeypadClassification(devices[1..], d);
      assert forall x :: x in devices <==> x == devices[0] || x in devices[1..];
    }
  }

  /** The letter case of the model does not matter. */
  lemma KeypadModelIgnoresCase(text: string)
    ensures IsKeypadModel(Lower(text)) == IsKeypadModel(text)
  {
    assert Lower(Lower(text)) == Lower(text);
  }

  /** `list_devices(client)`: a failed device listing is logged. */
  function ListDevices(listing: Result<seq<Device>>): (r: Listing)
    ensures listing.Err? ==> r == Listing([], HandleException(listing.error))
    ensures r.ending.Propagated? ==> listing.Err? && !IsException(listing.error)
  {
    match listing
    case Err(e) => Listing([], HandleException(e))
    case Ok(devices) => DescribeAll(devices)
  }

  /** `client.locks.info(device_mac=...)`: None, or a lock whose `keypad`
      is truthy or not. */
  datatype LockInfo = NoInfo | Info(keypad: bool)

  /** One lock's check: whether its keypad was reported enabled. */
  datatype Check = Check(mac: Option<string>, enabled: bool, ending: Ending)

  /** `check_and_activate_keypads(client, lock_mac)`: the lookup is the only
      remote call; its failure is logged. */
  function CheckAndActivate(mac: Option<string>, info: Result<LockInfo>): (r: Check)
    ensures r.mac == mac
    ensures r.enabled <==> info.Ok? && info.value.Info? && info.value.keypad
    ensures r.ending.Normal? <==> info.Ok?
    ensures info.Err? ==> r.ending == HandleException(info.error)
  {
    match info
    case Err(e) => Check(mac, false, HandleException(e))
    case Ok(NoInfo) => Check(mac, false, Normal)
    case Ok(Info(keypad)) => Check(mac, keypad, Normal)
  }

  /** How the script went: the device listing (if reached), the lock
      checks made, and how it ended. */
  datatype Activation = Activation(listing: Option<Listing>, checks: seq<Check>, ending: Ending)

  /** Checks the locks in order; an exception that `except Exception` lets
      through ends the loop. */
  function CheckEach(macs: seq<Option<string>>, info: Option<string> -> Result<LockInfo>): (r: (seq<Check>, Ending))
    ensures |r.0| <= |macs|
    ensures forall k :: 0 <= k < |r.0| ==> r.0[k] == CheckAndActivate(macs[k], info(macs[k]))
    ensures r.1.Normal? ==> |r.0| == |macs|
    ensures !r.1.Handled?
    ensures (forall k :: 0 <= k < |macs| && info(macs[k]).Err? ==> IsException(info(macs[k]).error)) ==> r.1.Normal?
  {
    if |macs| == 0 then ([], Normal)
    else
      var first := CheckAndActivate(macs[0], info(macs[0]));
      if first.ending.Propagated? then ([first], first.ending)
      else
        var rest := CheckEach(macs[1..], info);
        ([first] + rest.0, rest.1)
  }

  /** `main()`: the guard, the listing, then the two configured locks. */
  function Main(c: Creds, probe: Reply, refreshReply: HttpReply, devices: Result<seq<Device>>,
                home1Mac: Option<string>, home2Mac: Option<string>,
                info: Option<string> -> Result<LockInfo>): (r: Activation)
    ensures r.listing.None? <==> GetClient(c, probe, c => RefreshByStatus(c, refreshReply), false).client.Err?
    ensures r.listing.None? ==> r.ending == Propagated(GetClient(c, probe, c => RefreshByStatus(c, refreshReply), false).client.error)
  {
    var guard := GetClient(c, probe, c => RefreshByStatus(c, refreshReply), false);
    if guard.client.Err? then Activation(None, [], Propagated(guard.client.error))
    else
      var listing := ListDevices(devices);
      if listing.ending.Propagated? then Activation(Some(listing), [], listing.ending)
      else
        var checks := CheckEach([home1Mac, home2Mac], info);
        Activation(Some(listing), checks.0, checks.1)
  }

  /** Once the client exists, both locks are checked, in configuration
      order, and the script ends normally: listing and lookup errors are
      logged, not raised. */
  lemma MainChecksBothLocks(c: Creds, probe: Reply, refreshReply: HttpReply, devices: Result<seq<Device>>,
                            home1Mac: Option<string>, home2Mac: Option<string>,
                            info: Option<string> -> Result<LockInfo>)
    requires GetClient(c, probe, c => RefreshByStatus(c, refreshReply), false).client.Ok?
    requires devices.Err? ==> IsException(devices.error)
    requires info(home1Mac).Err? ==> IsException(info(home1Mac).error)
    requires info(home2Mac).Err? ==> IsException(info(home2Mac).error)
    ensures Main(c, probe, refreshReply, devices, home1Mac, home2Mac, info).ending.Normal?
    ensures Main(c, probe, refreshReply, devices, home1Mac, home2Mac, info).checks
            == [CheckAndActivate(home1Mac, info(home1Mac)), CheckAndActivate(home2Mac, info(home2Mac))]
  {
    var macs := [home1Mac, home2Mac];
    assert macs[1..] == [home2Mac];
    assert macs[1..][1..] == [];
  }
}

=== FILE: labels.dfy ===
/** The access-code name `"<%a of check-in>-<N>days"`, where N is
    `(check_out - check_in).days`. It is the only thing that ties a lock key
    back to a stay, so this module also reads it back. */
module Labels {
  import opened Outcomes
  import opened Text
  import opened Clock

  const Suffix: string := "days"

  /** The name for a weekday index (Monday 0) and a whole-day count. */
  function LabelOf(weekday: int, days: int): (s: string)
    requires 0 <= weekday < 7
    ensures EndsWith(s, Suffix)
  {
    var s := WeekdayNames[weekday] + "-" + IntToString(days) + Suffix;
    assert s[|s| - 4..] == Suffix;
    s
  }

  /** `f"{check_in.strftime('%a')}-{(check_out - check_in).days}days"`. */
  function Label(checkIn: DateTime, checkOut: DateTime): (s: string)
    ensures EndsWith(s, Suffix)
    ensures s[..3] == WeekdayAbbrev(checkIn)
  {
    LabelOf(Weekday(checkIn), DaysBetween(checkIn, checkOut))
  }

  function IndexOfName(names: seq<string>, s: string): (r: Option<int>)
    ensures r.Some? ==> 0 <= r.value < |names| && names[r.value] == s
    ensures r.None? ==> s !in names
  {
    if |names| == 0 then None
    else if names[0] == s then Some(0)
    else match IndexOfName(names[1..], s)
      case Some(i) => Some(i + 1)
      case None => None
  }

  /** Reads a name of the `LabelOf` shape back into (weekday, days). */
  function ParseLabel(s: string): Option<(int, int)> {
    if |s| < 9 || s[3] != '-' || !EndsWith(s, Suffix) then None
    else match (IndexOfName(WeekdayNames, s[..3]), ParseInt(s[4..|s| - 4]))
      case (Some(w), Some(n)) => Some((w, n))
      case _ => None
  }

  lemma {:induction false} ParseLabelOf(weekday: int, days: int)
    requires 0 <= weekday < 7
    ensures ParseLabel(LabelOf(weekday, days)) == Some((weekday, days))
  {
    var name := WeekdayNames[weekday];
    var digits := IntToString(days);
    var s := LabelOf(weekday, days);
    assert s == name + "-" + digits + Suffix;
    assert s[..3] == name;
    assert s[4..|s| - 4] == digits;
    IntToStringRoundTrip(days);
    assert IndexOfName(WeekdayNames, name) == Some(weekday);
  }

  /** Two stays get the same name exactly when they start on the same
      weekday and span the same number of whole days: the name cannot tell
      such stays apart. */
  lemma LabelCollision(in1: DateTime, out1: DateTime, in2: DateTime, out2: DateTime)
    ensures Label(in1, out1) == Label(in2, out2)
        <==> Weekday(in1) == Weekday(in2) && DaysBetween(in1, out1) == DaysBetween(in2, out2)
  {
    ParseLabelOf(Weekday(in1), DaysBetween(in1, out1));
    ParseLabelOf(Weekday(in2), DaysBetween(in2, out2));
  }

  /** The day count is the number of calendar dates crossed, less one when
      check-out's clock time is earlier than check-in's: a 15:00 arrival and
      an 11:00 departure three dates later are named "...-2days". */
  lemma LabelDays(checkIn: DateTime, checkOut: DateTime)
    ensures ParseLabel(Label(checkIn, checkOut)) == Some((Weekday(checkIn),
      Ordinal(checkOut) - Ordinal(checkIn) - (if TimeOfDay(checkOut) < TimeOfDay(checkIn) then 1 else 0)))
  {
    ParseLabelOf(Weekday(checkIn), DaysBetween(checkIn, checkOut));
    DaysBetweenByDate(checkIn, checkOut);
  }

  /** Check-out exactly one day after check-in is always named "<weekday>-1days". */
  lemma NextDayLabel(checkIn: DateTime)
    requires PlusOneDay(checkIn).Ok?
    ensures Label(checkIn, PlusOneDay(checkIn).value) == WeekdayAbbrev(checkIn) + "-1days"
  {
    DaysBetweenByDate(checkIn, PlusOneDay(checkIn).value);
  }
}

=== FILE: lockdevices.dfy ===
/** The lock-listing script: fetch the user's lock devices from the lock
    service and print each one's public, non-callable attributes, keeping a
    failure on one device from stopping the others. */
module LockDevices {
  import opened Outcomes
  import opened Text
  import opened Api
  import opened Credentials

  /** What `getattr(device, name)` gives: a callable, a printable value, or
      an exception. */
  datatype AttrValue = Callable | Plain(text: string) | Unreadable(e: Exc)

  datatype Attribute = Attribute(name: string, value: AttrValue)

  /** A lock device: its `nickname` (reading it may raise) and its
      attributes in `dir()` order. */
  datatype LockDevice = LockDevice(nickname: Result<string>, attrs: seq<Attribute>)

  /** What was printed for one device and the exception that cut it short. */
  datatype DeviceReport = DeviceReport(lines: seq<(string, string)>, failure: Option<Exc>)

  /** The attribute loop: names starting with "_" are skipped without being
      read; reading any other raises out of the loop or yields a callable
      (skipped) or a value (printed). */
  function ShowAttributes(attrs: seq<Attribute>): (r: DeviceReport)
    ensures forall k :: 0 <= k < |r.lines| ==> !StartsWith(r.lines[k].0, "_")
    ensures forall k :: 0 <= k < |r.lines| ==> Attribute(r.lines[k].0, Plain(r.lines[k].1)) in attrs
    ensures r.failure.Some? ==> exists a :: a in attrs && !StartsWith(a.name, "_") && a.value == Unreadable(r.failure.value)
  {
    if |attrs| == 0 then DeviceReport([], None)
    else
      var a := attrs[0];
      assert forall x :: x in attrs[1..] ==> x in attrs;
      if StartsWith(a.name, "_") then ShowAttributes(attrs[1..])
      else match a.value
        case Unreadable(e) => DeviceReport([], Some(e))
        case Callable => ShowAttributes(attrs[1..])
        case Plain(text) =>
          var rest := ShowAttributes(attrs[1..]);
          DeviceReport([(a.name, text)] + rest.lines, rest.failure)
  }

  /** When no attribute read fails, exactly the public, non-callable
      attributes are printed, with their values. */
  lemma {:induction false} ShowsExactlyPublicValues(attrs: seq<Attribute>, name: string, text: string)
    requires ShowAttributes(attrs).failure.None?
    ensures (name, text) in ShowAttributes(attrs).lines
            <==> Attribute(name, Plain(text)) in attrs && !StartsWith(name, "_")
  {
    if |attrs| > 0 {
      ShowsExactlyPublicValues(attrs[1..], name, text);
      assert forall x :: x in attrs <==> x == attrs[0] || x in attrs[1..];
    }
  }

  /** The per-device body of `list_lock_devices`: the nickname first, then
      the attributes. */
  function ShowDevice(d: LockDevice): (r: DeviceReport)
    ensures d.nickname.Err? ==> r == DeviceReport([], Some(d.nickname.error))
    ensures d.nickname.Ok? ==> r == ShowAttributes(d.attrs)
  {
    if d.nickname.Err? then DeviceReport([], Some(d.nickname.error)) else ShowAttributes(d.attrs)
  }

  datatype LockListing = LockListing(reports: seq<DeviceReport>, ending: Ending)

  /** The device loop: `except Exception` around each device logs its
      failure and moves on. */
  function ShowEach(devices: seq<LockDevice>): (r: LockListing)
    ensures |r.reports| <= |devices|
    ensures forall k :: 0 <= k < |r.reports| ==> r.reports[k] == ShowDevice(devices[k])
    ensures !r.ending.Handled?
    ensures r.ending.Propagated? ==> !IsException(r.ending.escaped)
    ensures r.ending.Normal? ==> |r.reports| == |devices|
  {
    if |devices| == 0 then LockListing([], Normal)
    else
      var first := ShowDevice(devices[0]);
      if first.failure.Some? && !IsException(first.failure.value) then
        LockListing([first], Propagated(first.failure.value))
      else
        var rest := ShowEach(devices[1..]);
        LockListing([first] + rest.reports, rest.ending)
  }

  /** A device that fails with an Exception does not stop the devices
      after it: every device is shown. */
  lemma {:induction false} EveryDeviceShown(devices: seq<LockDevice>)
    requires forall k :: 0 <= k < |devices| && ShowDevice(devices[k]).failure.Some?
               ==> IsException(ShowDevice(devices[k]).failure.value)
    ensures ShowEach(devices).ending.Normal?
    ensures |ShowEach(devices).reports| == |devices|
  {
    if |devices| > 0 {
      EveryDeviceShown(devices[1..]);
    }
  }

  /** `list_lock_devices(client)` as written. `_get_lock_devices` names
      `FordServiceClient`, which the script never imports, so every call
      raises NameError before the lock service is asked; the generic handler
      logs it. */
  function ListLockDevicesAsWritten(fetched: Result<seq<LockDevice>>): (r: LockListing)
    ensures r.reports == [] && r.ending == Handled(NameError("FordServiceClient"))
  {
    var unbound := NameError("FordServiceClient");
    LockListing([], HandleException(unbound))
  }

  /** `list_lock_devices(client)` with the service client class in scope:
      the fetched devices are shown; a failed fetch is logged. */
  function ListLockDevices(fetched: Result<seq<LockDevice>>): (r: LockListing)
    ensures fetched.Err? ==> r == LockListing([], HandleException(fetched.error))
    ensures fetched.Ok? ==> r == ShowEach(fetched.value)
  {
    match fetched
    case Err(e) => LockListing([], HandleException(e))
    case Ok(devices) => ShowEach(devices)
  }

  /** Whatever the lock service would return, the script as written shows
      nothing, while with the class in scope a fetched device is shown. */
  lemma AsWrittenShowsNothing(d: LockDevice)
    ensures ListLockDevicesAsWritten(Ok([d])).reports == []
    ensures |ListLockDevices(Ok([d])).reports| == 1
  {
    assert [d][1..] == [];
  }

  /** `main()`: the guard, then the listing; `except Exception` logs a
      guard failure. */
  function Main(c: Creds, probe: Reply, refreshReply: HttpReply, fetched: Result<seq<LockDevice>>): (r: LockListing)
    ensures r.reports != [] ==> GetClient(c, probe, cc => RefreshRaisingForStatus(cc, refreshReply), true).client.Ok?
    ensures r.ending.Propagated? ==> !IsException(r.ending.escaped)
  {
    var guard := GetClient(c, probe, cc => RefreshRaisingForStatus(cc, refreshReply), true);
    if guard.client.Err? then LockListing([], HandleException(guard.client.error))
    else ListLockDevices(fetched)
  }
}

=== FILE: outcomes.dfy ===
/** Failure vocabulary shared by every script of the lock/calendar system.

    The Python scripts signal failure by raising exceptions. `Exc` names the
    exception kinds the modelled code raises, catches or lets through, and
    `Result` carries either a value or the exception that ended a computation.
 */
module Outcomes {

  datatype Option<+T> = None | Some(value: T) {
    function GetOr(default: T): T {
      match this
      case Some(v) => v
      case None => default
    }
  }

  /** The exception kinds that matter to the modelled control flow. */
  datatype Exc =
    | ApiError(msg: string)          // wyze_sdk WyzeApiError (its str() is msg)
    | RequestError(msg: string)      // wyze_sdk WyzeRequestError
    | TransportError(msg: string)    // requests.RequestException other than HTTPError
    | HttpError(status: int)         // requests.HTTPError from raise_for_status()
    | RefreshFailed(status: int)     // the plain Exception raised on a non-200 refresh reply
    | KeyError(key: string)
    | JsonError                      // body is not JSON
    | ValueError(msg: string)
    | TypeError(msg: string)
    | IndexError
    | AttributeError(name: string)
    | NameError(name: string)
    | OverflowError
    | SystemExit                     // raised by exit(); not an Exception subclass

  /** Whether `except Exception` catches the exception. */
  predicate IsException(e: Exc) {
    !e.SystemExit?
  }

  /** Whether `except requests.RequestException` catches the exception. */
  predicate IsRequestException(e: Exc) {
    e.TransportError? || e.HttpError? || e.JsonError?
  }

  datatype Result<+T> = Ok(value: T) | Err(error: Exc) {
    predicate IsFailure() {
      Err?
    }

    function PropagateFailure<U>(): Result<U>
      requires Err?
    {
      Err(error)
    }

    function Extract(): T
      requires Ok?
    {
      value
    }
  }

  /** How a script-level call ended: normally, with an exception that a
      handler caught and logged, or with an exception that escaped. */
  datatype Ending = Normal | Handled(caught: Exc) | Propagated(escaped: Exc)

  /** How `except Exception` leaves an exception: caught and logged, or
      still on its way out. */
  function HandleException(e: Exc): (r: Ending)
    ensures r.Handled? <==> IsException(e)
    ensures r.Handled? ==> r.caught == e
    ensures r.Propagated? ==> r.escaped == e
  {
    if IsException(e) then Handled(e) else Propagated(e)
  }

  /** The sequences of `parts`, one after the other. */
  function Concat<T>(parts: seq<seq<T>>): seq<T> {
    if |parts| == 0 then [] else parts[0] + Concat(parts[1..])
  }
}

=== FILE: pinset.dfy ===
/** The pin-setting debug script: one access code for the first home's lock,
    valid every day of the week between check-in's and check-out's clock
    times, encrypted with the lock service's secret before it is sent. */
module PinSet {
  import opened Outcomes
  import opened Text
  import opened Clock
  import opened Labels
  import opened Api
  import opened Credentials
  import opened Keypads

  /** `re.match(r'^\d{4,8}$', code)` with ASCII digits. Python's `$` also
      matches just before a final newline, so one trailing "\n" gets through. */
  predicate MatchesAsWritten(code: string) {
    (4 <= |code| <= 8 && AllDigits(code))
    || (|code| >= 1 && code[|code| - 1] == '\n' && 4 <= |code| - 1 <= 8 && AllDigits(code[..|code| - 1]))
  }

  /** The intended check: four to eight digits and nothing else. */
  predicate ValidAccessCode(code: string) {
    4 <= |code| <= 8 && AllDigits(code)
  }

  /** The written pattern and the intended check differ on exactly the codes
      that end in a newline. */
  lemma AsWrittenAcceptsTrailingNewline()
    ensures MatchesAsWritten("1234\n") && !ValidAccessCode("1234\n")
  {
    assert "1234\n"[..4] == "1234";
  }

  lemma AsWrittenAgreesWithoutNewline(code: string)
    requires '\n' !in code
    ensures MatchesAsWritten(code) <==> ValidAccessCode(code)
  {
    if |code| >= 1 {
      assert code[|code| - 1] in code;
    }
  }

  /** The calls the script makes after validation, in order. */
  datatype PinCall = SecretFetch | CreateCall(request: CreateRequest)

  datatype Attempt = Attempt(calls: seq<PinCall>, ending: Ending)

  const EveryDay: seq<int> := [0, 1, 2, 3, 4, 5, 6]

  /** The request `create_temp_access_code` sends: permission ALWAYS with
      both flags set, and a daily window from check-in's `%H%M%S` to
      check-out's. */
  function TempRequest(mac: Option<string>, encrypted: string, checkIn: DateTime, checkOut: DateTime): (req: CreateRequest)
    ensures req.deviceMac == mac && req.accessCode == encrypted
    ensures req.name == Label(checkIn, checkOut)
    ensures req.permission.kind == Always && req.permission.canUnlock == Some(true) && req.permission.canLock == Some(true)
    ensures req.periodicity.Daily? && req.periodicity.validDays == EveryDay
    ensures |req.periodicity.begin| == 6 && |req.periodicity.end| == 6
    ensures AllDigits(req.periodicity.begin) && AllDigits(req.periodicity.end)
  {
    CreateRequest(mac, encrypted, Label(checkIn, checkOut),
                  Permission(Always, Some(true), Some(true), None, None),
                  Daily(FormatHms(checkIn), FormatHms(checkOut), EveryDay))
  }

  /** The daily window keeps only the clock times: two stays get the same
      window exactly when their check-ins agree to the second and so do their
      check-outs, whatever the dates. */
  lemma WindowIsClockTimeOnly(mac: Option<string>, code: string, in1: DateTime, out1: DateTime,
                              in2: DateTime, out2: DateTime)
    ensures TempRequest(mac, code, in1, out1).periodicity == TempRequest(mac, code, in2, out2).periodicity
            <==> in1.hour == in2.hour && in1.minute == in2.minute && in1.second == in2.second
                 && out1.hour == out2.hour && out1.minute == out2.minute && out1.second == out2.second
  {
    FormatHmsExactlyClockTime(in1, in2);
    FormatHmsExactlyClockTime(out1, out2);
  }

  /** `create_temp_access_code` with the code check `accepts`: a rejected
      code raises ValueError before any remote call; then the secret fetch,
      the encryption and the create. Every exception is logged. */
  function CreateWith(accepts: string -> bool, mac: Option<string>, code: string,
                      checkIn: DateTime, checkOut: DateTime, secret: Result<string>,
                      encrypt: (string, string) -> string, reply: CreateRequest -> Reply): (r: Attempt)
    ensures r.calls == [] <==> !accepts(code)
    ensures !accepts(code) ==> r.ending == Handled(ValueError("Access code must be a 4-8 digit number"))
    ensures |r.calls| <= 2 && (|r.calls| >= 1 ==> r.calls[0] == SecretFetch)
    ensures |r.calls| == 2 <==> accepts(code) && secret.Ok?
    ensures |r.calls| == 2 ==> r.calls[1] == CreateCall(TempRequest(mac, encrypt(secret.value, code), checkIn, checkOut))
  {
    if !accepts(code) then Attempt([], Handled(ValueError("Access code must be a 4-8 digit number")))
    else match secret
      case Err(e) => Attempt([SecretFetch], HandleException(e))
      case Ok(key) =>
        var req := TempRequest(mac, encrypt(key, code), checkIn, checkOut);
        match reply(req)
        case Done => Attempt([SecretFetch, CreateCall(req)], Normal)
        case Raised(e) => Attempt([SecretFetch, CreateCall(req)], HandleException(e))
  }

  /** `create_temp_access_code` as written. */
  function CreateTempAccessCodeAsWritten(mac: Option<string>, code: string, checkIn: DateTime, checkOut: DateTime,
                                         secret: Result<string>, encrypt: (string, string) -> string,
                                         reply: CreateRequest -> Reply): (r: Attempt)
    ensures r.calls != [] <==> MatchesAsWritten(code)
  {
    CreateWith(MatchesAsWritten, mac, code, checkIn, checkOut, secret, encrypt, reply)
  }

  /** `create_temp_access_code` with the intended code check: only a code of
      four to eight digits reaches the secret fetch and the encryption. */
  function CreateTempAccessCode(mac: Option<string>, code: string, checkIn: DateTime, checkOut: DateTime,
                                secret: Result<string>, encrypt: (string, string) -> string,
                                reply: CreateRequest -> Reply): (r: Attempt)
    ensures r.calls != [] <==> ValidAccessCode(code)
    ensures !ValidAccessCode(code) ==> r.ending.Handled? && r.ending.caught.ValueError?
    ensures !r.ending.Propagated? || (secret.Err? && !IsException(secret.error))
            || (secret.Ok? && reply(TempRequest(mac, encrypt(secret.value, code), checkIn, checkOut)).Raised?)
  {
    CreateWith(ValidAccessCode, mac, code, checkIn, checkOut, secret, encrypt, reply)
  }

  /** The code "1234\n" is encrypted and sent as written, and refused by
      the intended check. */
  lemma NewlineCodeSent(mac: Option<string>, checkIn: DateTime, checkOut: DateTime,
                        key: string, encrypt: (string, string) -> string, reply: CreateRequest -> Reply)
    ensures CreateTempAccessCodeAsWritten(mac, "1234\n", checkIn, checkOut, Ok(key), encrypt, reply).calls
            == [SecretFetch, CreateCall(TempRequest(mac, encrypt(key, "1234\n"), checkIn, checkOut))]
    ensures CreateTempAccessCode(mac, "1234\n", checkIn, checkOut, Ok(key), encrypt, reply).calls == []
  {
    AsWrittenAcceptsTrailingNewline();
  }

  /** The function logs every exception that remote services raise: only
      an exit signal could escape it. */
  lemma CreateNeverPropagates(mac: Option<string>, code: string, checkIn: DateTime, checkOut: DateTime,
                              secret: Result<string>, encrypt: (string, string) -> string,
                              reply: CreateRequest -> Reply)
    requires secret.Err? ==> IsException(secret.error)
    requires forall req :: reply(req).Raised? ==> IsException(reply(req).e)
    ensures !CreateTempAccessCode(mac, code, checkIn, checkOut, secret, encrypt, reply).ending.Propagated?
  {
  }

  /** `list_keypads(client)`: the devices whose `product_model` is exactly
      "Keypad"; a failed listing is logged and lists nothing. */
  function ListKeypads(devices: Result<seq<Device>>): (r: seq<Device>)
    ensures forall d :: d in r <==> devices.Ok? && d in devices.value && d.model == ModelText("Keypad")
  {
    match devices
    case Err(_) => []
    case Ok(ds) => ExactKeypads(ds)
  }

  function ExactKeypads(ds: seq<Device>): (r: seq<Device>)
    ensures forall d :: d in r <==> d in ds && d.model == ModelText("Keypad")
  {
    if |ds| == 0 then []
    else (if ds[0].model == ModelText("Keypad") then [ds[0]] else []) + ExactKeypads(ds[1..])
  }

  /** The debug listing's exact match is narrower than the keypad script's
      test: every model text starting with "Keypad" is a keypad there, but
      only "Keypad" itself (such as not "Keypad Pro") is listed here. */
  lemma ExactMatchIsNarrower(t: string)
    requires StartsWith(t, "Keypad")
    ensures IsKeypadModel(t)
    ensures ModelText(t) == ModelText("Keypad") <==> |t| == 6
  {
    assert forall i :: 0 <= i < 6 ==> t[i] == "Keypad"[i];
    assert Lower(t)[..6] == "keypad";
    ContainsSpec(Lower(t), "keypad");
    assert OccursAt(Lower(t), "keypad", 0);
    if |t| == 6 {
      assert t == t[..6];
    }
  }

  /** The fixed code of `main`. */
  const MainCode: string := "1238"

  /** `main()`, with `now` the wall-clock reading: print the first ten
      characters of each token (a None token raises TypeError), get the
      client, then a code from now until the same time tomorrow. */
  function Main(c: Creds, probe: Reply, refreshReply: HttpReply, mac: Option<string>, now: DateTime,
                secret: Result<string>, encrypt: (string, string) -> string,
                reply: CreateRequest -> Reply): (r: Attempt)
    ensures c.globals.access.None? || c.globals.refresh.None? ==> r == Attempt([], Propagated(TypeError("'NoneType' object is not subscriptable")))
    ensures r.calls != [] ==> GetClient(c, probe, c => RefreshByStatus(c, refreshReply), false).client.Ok?
  {
    if c.globals.access.None? || c.globals.refresh.None? then
      Attempt([], Propagated(TypeError("'NoneType' object is not subscriptable")))
    else
      var guard := GetClient(c, probe, c => RefreshByStatus(c, refreshReply), false);
      if guard.client.Err? then Attempt([], Propagated(guard.client.error))
      else match PlusOneDay(now)
        case Err(e) => Attempt([], Propagated(e))
        case Ok(tomorrow) => CreateTempAccessCode(mac, MainCode, now, tomorrow, secret, encrypt, reply)
  }

  /** With both tokens set and a working client, `main` sends one code named
      "<weekday>-1days" whose daily window opens and closes at the current
      clock time. */
  lemma MainSendsNextDayCode(c: Creds, probe: Reply, refreshReply: HttpReply, mac: Option<string>, now: DateTime,
                             key: string, encrypt: (string, string) -> string, reply: CreateRequest -> Reply)
    requires c.globals.access.Some? && c.globals.refresh.Some?
    requires GetClient(c, probe, c => RefreshByStatus(c, refreshReply), false).client.Ok?
    requires PlusOneDay(now).Ok?
    ensures |Main(c, probe, refreshReply, mac, now, Ok(key), encrypt, reply).calls| == 2
    ensures var req := Main(c, probe, refreshReply, mac, now, Ok(key), encrypt, reply).calls[1].request;
            req.name == WeekdayAbbrev(now) + "-1days"
            && req.accessCode == encrypt(key, MainCode)
            && req.periodicity == Daily(FormatHms(now), FormatHms(now), EveryDay)
  {
    var tomorrow := PlusOneDay(now).value;
    NextDayLabel(now);
    assert AllDigits(MainCode);
    assert tomorrow.hour == now.hour && tomorrow.minute == now.minute && tomorrow.second == now.second;
  }
}

=== FILE: provisioning.dfy ===
/** `process_bookings` and `create_access_code` of the booking poller: each
    booking's dates get the home's check-in and check-out clock times, and
    one create request goes to the home's lock per booking. */
module Provisioning {
  import opened Outcomes
  import opened Text
  import opened Clock
  import opened Labels
  import opened Bookings
  import opened Api

  /** One entry of HOMES; every value comes from the environment and may be None. */
  datatype Home = Home(
    name: string,
    icalUrl: Option<string>,
    lockMac: Option<string>,
    checkInTime: Option<string>,
    checkOutTime: Option<string>)

  /** `int(s.split(':')[0])` and `int(s.split(':')[1])`, evaluated in that order. */
  function ClockSetting(setting: Option<string>): (r: Result<(int, int)>)
    ensures r.Ok? ==> r.value.0 >= 0 && r.value.1 >= 0
  {
    match setting
    case None => Err(AttributeError("split"))
    case Some(s) =>
      var parts := Split(s, ':');
      var hour :- PyInt(parts[0]);
      if |parts| < 2 then Err(IndexError)
      else
        var minute :- PyInt(parts[1]);
        Ok((hour, minute))
  }

  /** `when.replace(hour=..., minute=...)`: a bare date has no `hour`
      (TypeError); an hour or minute out of range is a ValueError. */
  function Stamp(when: When, setting: Option<string>): (r: Result<DateTime>)
    ensures r.Ok? ==> when.At? && ClockSetting(setting).Ok?
    ensures r.Ok? ==> r.value == when.t.(hour := ClockSetting(setting).value.0,
                                         minute := ClockSetting(setting).value.1)
  {
    var (hour, minute) :- ClockSetting(setting);
    match when
    case OnDate(_, _, _) =>
      var failure: Result<DateTime> := Err(TypeError("'hour' is an invalid keyword argument for replace()"));
      failure
    case At(t) =>
      if hour < 24 && minute < 60 then Ok(t.(hour := hour, minute := minute))
      else Err(ValueError("hour or minute out of range"))
  }

  lemma {:induction false} SplitWithoutSeparator(s: string, c: char)
    requires c !in s
    ensures Split(s, c) == [s]
  {
    if |s| > 0 {
      SplitWithoutSeparator(s[1..], c);
      assert [s[0]] + s[1..] == s;
    }
  }

  lemma {:induction false} SplitAtFirstSeparator(a: string, b: string, c: char)
    requires c !in a
    ensures Split(a + [c] + b, c) == [a] + Split(b, c)
  {
    var s := a + [c] + b;
    if |a| == 0 {
      assert s[1..] == b;
    } else {
      assert s[1..] == a[1..] + [c] + b;
      SplitAtFirstSeparator(a[1..], b, c);
      assert [a[0]] + a[1..] == a;
    }
  }

  /** A well-formed "HH:MM" setting stamps exactly that clock time, keeping
      the event's date, seconds and microseconds. */
  lemma StampWithSetting(t: DateTime, hour: nat, minute: nat)
    requires hour < 24 && minute < 60
    ensures Stamp(At(t), Some(Fixed(hour, 2) + ":" + Fixed(minute, 2)))
            == Ok(t.(hour := hour, minute := minute))
  {
    var hh, mm := Fixed(hour, 2), Fixed(minute, 2);
    assert ':' !in hh && ':' !in mm;
    SplitAtFirstSeparator(hh, mm, ':');
    SplitWithoutSeparator(mm, ':');
    PyIntReadsBack(hour, 2);
    PyIntReadsBack(minute, 2);
  }

  /** Stamping a stamped value again with the same setting changes nothing. */
  lemma StampIdempotent(when: When, setting: Option<string>)
    requires Stamp(when, setting).Ok?
    ensures Stamp(At(Stamp(when, setting).value), setting) == Stamp(when, setting)
  {
  }

  /** `create_access_code(device_mac, guest_phone_last4, check_in, check_out)`:
      the guest digits are the code, the name is the stay label, and the
      periodicity carries both instants as `%Y-%m-%dT%H:%M:%S` text. */
  function BookingRequest(mac: Option<string>, last4: string, checkIn: DateTime, checkOut: DateTime): (req: CreateRequest)
    ensures req.deviceMac == mac && req.accessCode == last4
    ensures req.permission.canUnlock == Some(true) && req.permission.canLock == Some(true)
    ensures req.periodicity.Once? && EndsWith(req.name, Suffix)
  {
    CreateRequest(
      mac, last4, Label(checkIn, checkOut),
      Permission(SdkDefault, Some(true), Some(true), None, None),
      Once(FormatIso(checkIn), FormatIso(checkOut)))
  }

  /** What the request carries reads back as the stay: the start and end
      text parse to check-in and check-out (to the second), and the name to
      check-in's weekday and the whole-day count. */
  lemma BookingRequestReadsBack(mac: Option<string>, last4: string, checkIn: DateTime, checkOut: DateTime)
    ensures ParseIso(BookingRequest(mac, last4, checkIn, checkOut).periodicity.startTime) == Ok(WholeSeconds(checkIn))
    ensures ParseIso(BookingRequest(mac, last4, checkIn, checkOut).periodicity.endTime) == Ok(WholeSeconds(checkOut))
    ensures ParseLabel(BookingRequest(mac, last4, checkIn, checkOut).name)
            == Some((Weekday(checkIn), DaysBetween(checkIn, checkOut)))
  {
    ParseFormatIso(checkIn);
    ParseFormatIso(checkOut);
    ParseLabelOf(Weekday(checkIn), DaysBetween(checkIn, checkOut));
  }

  /** The create requests issued, in order, and how the run ended. */
  datatype Run = Run(requests: seq<CreateRequest>, ending: Ending)

  /** The request for one booking of `home`, or the exception stamping raised. */
  function RequestFor(home: Home, b: Booking): (r: Result<CreateRequest>)
    ensures r.Ok? ==> r.value.deviceMac == home.lockMac && r.value.accessCode == b.guestLast4
    ensures r.Ok? ==> EndsWith(r.value.name, Suffix)
  {
    var checkIn :- Stamp(b.checkIn, home.checkInTime);
    var checkOut :- Stamp(b.checkOut, home.checkOutTime);
    Ok(BookingRequest(home.lockMac, b.guestLast4, checkIn, checkOut))
  }

  /** The inner loop of `process_bookings`, given how each booking becomes a
      request: a create per booking; a WyzeApiError from create is logged and
      the loop goes on, any other exception ends the run. */
  function CreateEach(bookings: seq<Booking>, requestOf: Booking -> Result<CreateRequest>,
                      reply: CreateRequest -> Reply): (r: Run)
    ensures !r.ending.Handled?
    ensures |r.requests| <= |bookings|
    ensures r.ending.Normal? ==> |r.requests| == |bookings|
    ensures forall k :: 0 <= k < |r.requests| ==> requestOf(bookings[k]) == Ok(r.requests[k])
  {
    if |bookings| == 0 then Run([], Normal)
    else
      match requestOf(bookings[0])
      case Err(e) => Run([], Propagated(e))
      case Ok(req) =>
        var answer := reply(req);
        if answer.Raised? && !answer.e.ApiError? then Run([req], Propagated(answer.e))
        else
          var rest := CreateEach(bookings[1..], requestOf, reply);
          Run([req] + rest.requests, rest.ending)
  }

  /** A booking after which the loop goes on: it yields a request, and
      create raises nothing but WyzeApiError for it. */
  predicate CreateGoesOn(b: Booking, requestOf: Booking -> Result<CreateRequest>, reply: CreateRequest -> Reply) {
    requestOf(b).Ok? && (reply(requestOf(b).value).Raised? ==> reply(requestOf(b).value).e.ApiError?)
  }

  /** The exception a booking that stops the loop raises: stamping's, or else
      create's. */
  function CreateFailure(b: Booking, requestOf: Booking -> Result<CreateRequest>, reply: CreateRequest -> Reply): Exc
    requires !CreateGoesOn(b, requestOf, reply)
  {
    if requestOf(b).Err? then requestOf(b).error else reply(requestOf(b).value).e
  }

  /** The run over one home's bookings goes through exactly when every
      booking yields a request and no create raises anything but
      WyzeApiError. */
  lemma {:induction false} CreateEachCompletes(bookings: seq<Booking>, requestOf: Booking -> Result<CreateRequest>,
                                               reply: CreateRequest -> Reply)
    ensures CreateEach(bookings, requestOf, reply).ending.Normal?
            <==> forall k :: 0 <= k < |bookings| ==> CreateGoesOn(bookings[k], requestOf, reply)
  {
    if |bookings| > 0 {
      CreateEachCompletes(bookings[1..], requestOf, reply);
      assert forall k :: 1 <= k < |bookings| ==> bookings[k] == bookings[1..][k - 1];
    }
  }

  /** A run over one home's bookings that is cut short carries the exception
      of the first booking that stops the loop, stamping's or create's. */
  lemma {:induction false} CreateEachFailsAtFirst(bookings: seq<Booking>, requestOf: Booking -> Result<CreateRequest>,
                                                  reply: CreateRequest -> Reply)
    requires CreateEach(bookings, requestOf, reply).ending.Propagated?
    ensures exists k :: 0 <= k < |bookings| && !CreateGoesOn(bookings[k], requestOf, reply)
              && (forall j :: 0 <= j < k ==> CreateGoesOn(bookings[j], requestOf, reply))
              && CreateEach(bookings, requestOf, reply).ending.escaped == CreateFailure(bookings[k], requestOf, reply)
  {
    var r := CreateEach(bookings, requestOf, reply);
    if CreateGoesOn(bookings[0], requestOf, reply) {
      var tail := bookings[1..];
      CreateEachFailsAtFirst(tail, requestOf, reply);
      var k :| 0 <= k < |tail| && !CreateGoesOn(tail[k], requestOf, reply)
               && (forall j :: 0 <= j < k ==> CreateGoesOn(tail[j], requestOf, reply))
               && CreateEach(tail, requestOf, reply).ending.escaped == CreateFailure(tail[k], requestOf, reply);
      assert forall j :: 1 <= j < k + 1 ==> bookings[j] == tail[j - 1];
      assert bookings[k + 1] == tail[k];
    }
  }

  /** One home's turn of `process_bookings`: fetch its feed (an exception
      ends the run), then create a code per booking on the home's lock. */
  function HomeRun(home: Home, feed: Home -> FeedReply, reply: CreateRequest -> Reply): (r: Run)
    ensures !r.ending.Handled?
    ensures FetchBookings(feed(home)).Err? ==> r == Run([], Propagated(FetchBookings(feed(home)).error))
    ensures r.ending.Normal? ==> FetchBookings(feed(home)).Ok? && |r.requests| == |FetchBookings(feed(home)).value|
    ensures forall k :: 0 <= k < |r.requests| ==>
              r.requests[k].deviceMac == home.lockMac && EndsWith(r.requests[k].name, Suffix)
    ensures FetchBookings(feed(home)).Ok? ==>
              |r.requests| <= |FetchBookings(feed(home)).value|
              && forall k :: 0 <= k < |r.requests| ==> RequestFor(home, FetchBookings(feed(home)).value[k]) == Ok(r.requests[k])
  {
    match FetchBookings(feed(home))
    case Err(e) => Run([], Propagated(e))
    case Ok(bookings) => CreateEach(bookings, b => RequestFor(home, b), reply)
  }

  /** The outer loop of `process_bookings`, over each home's `turn`: the
      turns in home order, the first that does not go through ending the
      run. */
  function RunHomes(homes: seq<Home>, turn: Home -> Run): (r: Run)
    ensures r.ending.Handled? ==> exists h :: h in homes && turn(h).ending.Handled?
    ensures forall k :: 0 <= k < |r.requests| ==> exists h :: h in homes && r.requests[k] in turn(h).requests
  {
    if |homes| == 0 then Run([], Normal)
    else
      var first := turn(homes[0]);
      if !first.ending.Normal? then first
      else
        var rest := RunHomes(homes[1..], turn);
        assert forall h :: h in homes[1..] ==> h in homes;
        assert forall k :: 0 <= k < |first.requests| ==> first.requests[k] in turn(homes[0]).requests;
        Run(first.requests + rest.requests, rest.ending)
  }

  /** A run over all homes goes through exactly when every home's turn
      does. */
  lemma {:induction false} RunHomesCompletes(homes: seq<Home>, turn: Home -> Run)
    ensures RunHomes(homes, turn).ending.Normal? <==> forall i :: 0 <= i < |homes| ==> turn(homes[i]).ending.Normal?
  {
    if |homes| > 0 {
      RunHomesCompletes(homes[1..], turn);
      assert forall i :: 1 <= i < |homes| ==> homes[i] == homes[1..][i - 1];
    }
  }

  /** Each home's requests, one entry per home in order. */
  function PerHome(homes: seq<Home>, turn: Home -> Run): (parts: seq<seq<CreateRequest>>)
    ensures |parts| == |homes|
    ensures forall i :: 0 <= i < |homes| ==> parts[i] == turn(homes[i]).requests
  {
    if |homes| == 0 then []
    else
      assert forall i :: 1 <= i < |homes| ==> homes[i] == homes[1..][i - 1];
      [turn(homes[0]).requests] + PerHome(homes[1..], turn)
  }

  /** A completed run's requests are each home's, in home order. */
  lemma {:induction false} RunHomesPerHome(homes: seq<Home>, turn: Home -> Run)
    requires RunHomes(homes, turn).ending.Normal?
    ensures RunHomes(homes, turn).requests == Concat(PerHome(homes, turn))
  {
    if |homes| > 0 {
      RunHomesPerHome(homes[1..], turn);
    }
  }

  /** The position of the first home whose turn does not go through, or
      the number of homes when every turn does. */
  function FirstFailingHome(homes: seq<Home>, turn: Home -> Run): nat {
    if |homes| == 0 || !turn(homes[0]).ending.Normal? then 0
    else 1 + FirstFailingHome(homes[1..], turn)
  }

  /** A run that is cut short ends as the first home whose turn fails, and
      every home before it went through. */
  lemma {:induction false} RunHomesFailsAtFirst(homes: seq<Home>, turn: Home -> Run)
    requires !RunHomes(homes, turn).ending.Normal?
    ensures FirstFailingHome(homes, turn) < |homes|
    ensures forall j :: 0 <= j < FirstFailingHome(homes, turn) ==> turn(homes[j]).ending.Normal?
    ensures RunHomes(homes, turn).ending == turn(homes[FirstFailingHome(homes, turn)]).ending
  {
    if turn(homes[0]).ending.Normal? {
      var tail := homes[1..];
      RunHomesFailsAtFirst(tail, turn);
      assert forall j :: 1 <= j < |homes| ==> homes[j] == tail[j - 1];
    }
  }

  /** Each home's turn of `process_bookings`, as a function of the home. */
  function Turns(feed: Home -> FeedReply, reply: CreateRequest -> Reply): Home -> Run {
    h => HomeRun(h, feed, reply)
  }

  /** `process_bookings()`: each home's turn in order; the first exception
      ends the run. Nothing looks at the keys already on the lock. */
  function ProcessBookings(homes: seq<Home>, feed: Home -> FeedReply, reply: CreateRequest -> Reply): (r: Run)
    ensures !r.ending.Handled?
    ensures forall k :: 0 <= k < |r.requests| ==> EndsWith(r.requests[k].name, Suffix)
    ensures forall k :: 0 <= k < |r.requests| ==> exists h :: h in homes && r.requests[k].deviceMac == h.lockMac
  {
    RunHomes(homes, Turns(feed, reply))
  }

  /** A run over all homes goes through exactly when every home's feed is
      fetched and its bookings all go on (see CreateEachCompletes). */
  lemma ProcessBookingsCompletes(homes: seq<Home>, feed: Home -> FeedReply, reply: CreateRequest -> Reply)
    ensures ProcessBookings(homes, feed, reply).ending.Normal?
            <==> forall i :: 0 <= i < |homes| ==> HomeRun(homes[i], feed, reply).ending.Normal?
  {
    RunHomesCompletes(homes, Turns(feed, reply));
  }

  /** A completed run's requests are each home's, in home order: those of
      the home's bookings, in booking order, on the home's lock (see
      HomeRun). */
  lemma ProcessBookingsPerHome(homes: seq<Home>, feed: Home -> FeedReply, reply: CreateRequest -> Reply)
    requires ProcessBookings(homes, feed, reply).ending.Normal?
    ensures ProcessBookings(homes, feed, reply).requests == Concat(PerHome(homes, Turns(feed, reply)))
    ensures forall i :: 0 <= i < |homes| ==> PerHome(homes, Turns(feed, reply))[i] == HomeRun(homes[i], feed, reply).requests
  {
    RunHomesPerHome(homes, Turns(feed, reply));
  }

  /** The number of bookings the feeds of `homes` yield; a failed feed
      yields none. */
  function BookingCount(homes: seq<Home>, feed: Home -> FeedReply): nat {
    if |homes| == 0 then 0
    else
      (match FetchBookings(feed(homes[0]))
       case Err(_) => 0
       case Ok(bookings) => |bookings|) + BookingCount(homes[1..], feed)
  }

  lemma {:induction false} PerHomeCount(homes: seq<Home>, feed: Home -> FeedReply, reply: CreateRequest -> Reply)
    requires forall i :: 0 <= i < |homes| ==> HomeRun(homes[i], feed, reply).ending.Normal?
    ensures |Concat(PerHome(homes, Turns(feed, reply)))| == BookingCount(homes, feed)
  {
    if |homes| > 0 {
      var tail := homes[1..];
      assert forall i :: 1 <= i < |homes| ==> homes[i] == tail[i - 1];
      PerHomeCount(tail, feed, reply);
      assert PerHome(homes, Turns(feed, reply)) == [HomeRun(homes[0], feed, reply).requests] + PerHome(tail, Turns(feed, reply));
    }
  }

  /** A completed run makes one create request per booking of all the
      homes' feeds. */
  lemma ProcessBookingsCount(homes: seq<Home>, feed: Home -> FeedReply, reply: CreateRequest -> Reply)
    requires ProcessBookings(homes, feed, reply).ending.Normal?
    ensures |ProcessBookings(homes, feed, reply).requests| == BookingCount(homes, feed)
  {
    ProcessBookingsCompletes(homes, feed, reply);
    RunHomesPerHome(homes, Turns(feed, reply));
    PerHomeCount(homes, feed, reply);
  }

  /** A run that is cut short ends as the first home whose turn fails: with
      its feed's exception, or that of its first booking that stops the loop
      (see CreateEachFailsAtFirst). Every home before it went through. */
  lemma ProcessBookingsFailsAtFirst(homes: seq<Home>, feed: Home -> FeedReply, reply: CreateRequest -> Reply)
    requires ProcessBookings(homes, feed, reply).ending.Propagated?
    ensures FirstFailingHome(homes, Turns(feed, reply)) < |homes|
    ensures forall j :: 0 <= j < FirstFailingHome(homes, Turns(feed, reply)) ==> HomeRun(homes[j], feed, reply).ending.Normal?
    ensures ProcessBookings(homes, feed, reply).ending
            == HomeRun(homes[FirstFailingHome(homes, Turns(feed, reply))], feed, reply).ending
  {
    RunHomesFailsAtFirst(homes, Turns(feed, reply));
  }

  /** Two bookings whose stays start on the same weekday and span the same
      number of whole days both get a create request, under one name: the
      run does not skip a name it has already used. */
  lemma CollidingStaysBothCreated(home: Home, b1: Booking, b2: Booking, reply: CreateRequest -> Reply)
    requires RequestFor(home, b1).Ok? && RequestFor(home, b2).Ok?
    requires !reply(RequestFor(home, b1).value).Raised? && !reply(RequestFor(home, b2).value).Raised?
    requires Weekday(Stamp(b1.checkIn, home.checkInTime).value) == Weekday(Stamp(b2.checkIn, home.checkInTime).value)
    requires DaysBetween(Stamp(b1.checkIn, home.checkInTime).value, Stamp(b1.checkOut, home.checkOutTime).value)
          == DaysBetween(Stamp(b2.checkIn, home.checkInTime).value, Stamp(b2.checkOut, home.checkOutTime).value)
    ensures |CreateEach([b1, b2], b => RequestFor(home, b), reply).requests| == 2
    ensures CreateEach([b1, b2], b => RequestFor(home, b), reply).requests[0].name
         == CreateEach([b1, b2], b => RequestFor(home, b), reply).requests[1].name
  {
    var bs := [b1, b2];
    assert bs[1..] == [b2];
    assert bs[1..][1..] == [];
    LabelCollision(Stamp(b1.checkIn, home.checkInTime).value, Stamp(b1.checkOut, home.checkOutTime).value,
                   Stamp(b2.checkIn, home.checkInTime).value, Stamp(b2.checkOut, home.checkOutTime).value);
  }

  /** Check-in 15:00 on Monday 2024-06-10 and check-out 11:00 on 2024-06-13
      give the name "Mon-2days": three dates later, but the clock time of
      departure is earlier in the day than that of arrival, and `.days`
      floors. */
  lemma MondayStayLabel()
    ensures Label(Fields(2024, 6, 10, 15, 0, 0, 0), Fields(2024, 6, 13, 11, 0, 0, 0)) == "Mon-2days"
  {
    var a, b := Fields(2024, 6, 10, 15, 0, 0, 0), Fields(2024, 6, 13, 11, 0, 0, 0);
    DaysBetweenByDate(a, b);
    assert Ordinal(a) == 739047;
    assert Weekday(a) == 0;
  }
}

=== FILE: revocation.dfy ===
/** `delete_access_codes` and `cleanup_access_codes` of the booking poller:
    every key named "...days" whose periodicity end is strictly earlier than
    the cutoff is deleted. */
module Revocation {
  import opened Outcomes
  import opened Text
  import opened Clock
  import opened Labels
  import opened Api
  import opened Provisioning

  /** A key's `periodicity`: None, or a schedule whose `end_time` may be
      None (a daily key has no end date). */
  datatype KeyPeriod = Unscheduled | Scheduled(endTime: Option<string>)

  /** A key as `get_keys` returns it: id, name and periodicity. */
  datatype Key = Key(id: int, name: string, period: KeyPeriod)

  datatype KeysReply = KeysFailed(e: Exc) | Keys(keys: seq<Key>)

  /** `datetime.strptime(key.periodicity.end_time, "%Y-%m-%dT%H:%M:%S")`:
      a missing periodicity has no `end_time` (AttributeError), and a None
      end time is not a string (TypeError). What parses is exactly the text
      that `create_access_code` writes for the instant. */
  function EndTimeOf(k: Key): (r: Result<DateTime>)
    ensures r.Ok? ==> k.period == Scheduled(Some(FormatIso(r.value))) && r.value.micro == 0
    ensures k.period.Unscheduled? ==> r == Err(AttributeError("end_time"))
    ensures k.period.Scheduled? && k.period.endTime.None? ==> r.Err? && r.error.TypeError?
  {
    match k.period
    case Unscheduled => Err(AttributeError("end_time"))
    case Scheduled(None) => Err(TypeError("strptime() argument 1 must be str, not None"))
    case Scheduled(Some(text)) =>
      if ParseIso(text).Ok? then FormatParseIso(text); ParseIso(text) else ParseIso(text)
  }

  /** The condition of the `if` in `delete_access_codes`, for a key whose
      end time parses. */
  predicate Expired(k: Key, cutoff: DateTime) {
    EndsWith(k.name, Suffix) && EndTimeOf(k).Ok? && Earlier(EndTimeOf(k).value, cutoff)
  }

  /** The keys a delete was attempted for, in order, and how the pass ended. */
  datatype Sweep = Sweep(attempted: seq<Key>, ending: Ending)

  /** The loop of `delete_access_codes`. `endswith` short-circuits, so only a
      "...days" key has its end time read; a missing end time or a parse
      failure is not caught. A WyzeApiError from delete is logged and the loop goes on. */
  function SweepKeys(keys: seq<Key>, cutoff: DateTime, reply: Key -> Reply): (r: Sweep)
    ensures !r.ending.Handled?
    ensures forall k :: k in r.attempted ==> k in keys && Expired(k, cutoff)
  {
    if |keys| == 0 then Sweep([], Normal)
    else
      var k := keys[0];
      if !EndsWith(k.name, Suffix) then
        var rest := SweepKeys(keys[1..], cutoff, reply);
        Sweep(rest.attempted, rest.ending)
      else match EndTimeOf(k)
        case Err(e) => Sweep([], Propagated(e))
        case Ok(end) =>
          if !Earlier(end, cutoff) then SweepKeys(keys[1..], cutoff, reply)
          else
            var answer := reply(k);
            if answer.Raised? && !answer.e.ApiError? then Sweep([k], Propagated(answer.e))
            else
              var rest := SweepKeys(keys[1..], cutoff, reply);
              Sweep([k] + rest.attempted, rest.ending)
  }

  /** A pass that runs to the end has attempted exactly the expired keys;
      keys not named "...days" or ending at or after the cutoff are left. */
  lemma {:induction false} SweepSelectsExpired(keys: seq<Key>, cutoff: DateTime, reply: Key -> Reply, k: Key)
    requires SweepKeys(keys, cutoff, reply).ending.Normal?
    ensures k in SweepKeys(keys, cutoff, reply).attempted <==> k in keys && Expired(k, cutoff)
  {
    if |keys| > 0 {
      SweepSelectsExpired(keys[1..], cutoff, reply, k);
      assert forall x :: x in keys <==> x == keys[0] || x in keys[1..];
    }
  }

  /** The keys of a listing that are expired at `cutoff`, in listing order. */
  function ExpiredKeys(keys: seq<Key>, cutoff: DateTime): (r: seq<Key>)
    ensures forall k :: k in r <==> k in keys && Expired(k, cutoff)
  {
    if |keys| == 0 then []
    else
      assert forall x :: x in keys <==> x == keys[0] || x in keys[1..];
      (if Expired(keys[0], cutoff) then [keys[0]] else []) + ExpiredKeys(keys[1..], cutoff)
  }

  /** A pass that runs to the end attempts the expired keys in listing
      order, each as often as it is listed. */
  lemma {:induction false} SweepIsFilter(keys: seq<Key>, cutoff: DateTime, reply: Key -> Reply)
    requires SweepKeys(keys, cutoff, reply).ending.Normal?
    ensures SweepKeys(keys, cutoff, reply).attempted == ExpiredKeys(keys, cutoff)
  {
    if |keys| > 0 {
      SweepIsFilter(keys[1..], cutoff, reply);
    }
  }

  /** A "...days" key whose end time cannot be read (no periodicity, a None
      end time, or text that does not parse) ends the pass: no key listed
      after it is attempted. */
  lemma {:induction false} UnreadableEndStopsSweep(before: seq<Key>, k: Key, after: seq<Key>,
                                                   cutoff: DateTime, reply: Key -> Reply)
    requires EndsWith(k.name, Suffix) && EndTimeOf(k).Err?
    ensures SweepKeys(before + [k] + after, cutoff, reply).ending.Propagated?
    ensures forall x :: x in SweepKeys(before + [k] + after, cutoff, reply).attempted ==> x in before
  {
    var keys := before + [k] + after;
    if |before| == 0 {
      assert keys[0] == k;
    } else {
      assert keys[0] == before[0];
      assert keys[1..] == before[1..] + [k] + after;
      UnreadableEndStopsSweep(before[1..], k, after, cutoff, reply);
      assert forall x :: x in before[1..] ==> x in before;
    }
  }

  /** A pass is cut short only by a "...days" key without an end time that
      parses or by a delete raising something other than WyzeApiError: a
      failed delete does not stop the others. */
  lemma {:induction false} SweepCompletes(keys: seq<Key>, cutoff: DateTime, reply: Key -> Reply)
    requires forall k :: k in keys && EndsWith(k.name, Suffix) ==> EndTimeOf(k).Ok?
    requires forall k :: k in keys && Expired(k, cutoff) && reply(k).Raised? ==> reply(k).e.ApiError?
    ensures SweepKeys(keys, cutoff, reply).ending.Normal?
  {
    if |keys| > 0 {
      assert forall x :: x in keys[1..] ==> x in keys;
      SweepCompletes(keys[1..], cutoff, reply);
    }
  }

  /** `delete_access_codes(device_mac, check_out_date)`: a `get_keys` failure
      is not caught. */
  function DeleteAccessCodes(mac: Option<string>, cutoff: DateTime, listing: KeysReply,
                             reply: (Option<string>, Key) -> Reply): (r: Sweep)
    ensures !r.ending.Handled?
    ensures listing.KeysFailed? ==> r == Sweep([], Propagated(listing.e))
    ensures forall k :: k in r.attempted ==> listing.Keys? && k in listing.keys && Expired(k, cutoff)
  {
    match listing
    case KeysFailed(e) => Sweep([], Propagated(e))
    case Keys(keys) => SweepKeys(keys, cutoff, k => reply(mac, k))
  }

  /** One attempted delete across all homes: the lock and the key. */
  datatype Deletion = Deletion(mac: Option<string>, key: Key)

  datatype Cleanup = Cleanup(attempted: seq<Deletion>, ending: Ending)

  /** The deletions of `keys` on the lock `mac`. */
  function OnLock(mac: Option<string>, keys: seq<Key>): seq<Deletion> {
    seq(|keys|, i requires 0 <= i < |keys| => Deletion(mac, keys[i]))
  }

  /** One home's turn of `cleanup_access_codes`: `delete_access_codes` on its
      lock, each attempt recorded with the lock. */
  function LockCleanup(mac: Option<string>, now: DateTime, listing: Option<string> -> KeysReply,
                       reply: (Option<string>, Key) -> Reply): (r: Cleanup)
    ensures !r.ending.Handled?
    ensures forall d :: d in r.attempted ==>
              d.mac == mac && Expired(d.key, now) && listing(mac).Keys? && d.key in listing(mac).keys
  {
    var sweep := DeleteAccessCodes(mac, now, listing(mac), reply);
    Cleanup(OnLock(mac, sweep.attempted), sweep.ending)
  }

  /** The deletions a completed turn on lock `mac` makes: one per expired
      key of the lock's listing, in listing order. */
  function ExpiredOnLock(mac: Option<string>, now: DateTime, listing: Option<string> -> KeysReply): seq<Deletion> {
    match listing(mac)
    case KeysFailed(_) => []
    case Keys(keys) => OnLock(mac, ExpiredKeys(keys, now))
  }

  /** A turn that runs to the end listed the lock's keys and attempted
      exactly its expired ones, in order. */
  lemma LockCleanupSelectsExpired(mac: Option<string>, now: DateTime, listing: Option<string> -> KeysReply,
                                  reply: (Option<string>, Key) -> Reply)
    requires LockCleanup(mac, now, listing, reply).ending.Normal?
    ensures listing(mac).Keys?
    ensures LockCleanup(mac, now, listing, reply).attempted == ExpiredOnLock(mac, now, listing)
  {
    SweepIsFilter(listing(mac).keys, now, k => reply(mac, k));
  }

  /** `cleanup_access_codes()`: one reading of the clock, `now`, is the
      cutoff for every home; the first exception ends the pass. */
  function CleanupAccessCodes(homes: seq<Home>, now: DateTime, listing: Option<string> -> KeysReply,
                              reply: (Option<string>, Key) -> Reply): (r: Cleanup)
    ensures !r.ending.Handled?
    ensures forall d :: d in r.attempted ==> Expired(d.key, now)
    ensures forall d :: d in r.attempted ==> listing(d.mac).Keys? && d.key in listing(d.mac).keys
    ensures forall d :: d in r.attempted ==> exists h :: h in homes && h.lockMac == d.mac
  {
    if |homes| == 0 then Cleanup([], Normal)
    else
      var first := LockCleanup(homes[0].lockMac, now, listing, reply);
      if !first.ending.Normal? then first
      else
        var rest := CleanupAccessCodes(homes[1..], now, listing, reply);
        assert forall h :: h in homes[1..] ==> h in homes;
        Cleanup(first.attempted + rest.attempted, rest.ending)
  }

  /** A cleanup goes through exactly when every home's turn does, and then
      it has attempted, home by home in order, each lock's expired keys in
      listing order, each on its own lock. */
  lemma {:induction false} CleanupSelectsExpired(homes: seq<Home>, now: DateTime, listing: Option<string> -> KeysReply,
                                                 reply: (Option<string>, Key) -> Reply)
    ensures CleanupAccessCodes(homes, now, listing, reply).ending.Normal?
            <==> forall i :: 0 <= i < |homes| ==> LockCleanup(homes[i].lockMac, now, listing, reply).ending.Normal?
    ensures CleanupAccessCodes(homes, now, listing, reply).ending.Normal? ==>
              CleanupAccessCodes(homes, now, listing, reply).attempted
                == Concat(seq(|homes|, i requires 0 <= i < |homes| => ExpiredOnLock(homes[i].lockMac, now, listing)))
  {
    if |homes| > 0 {
      var tail := homes[1..];
      CleanupSelectsExpired(tail, now, listing, reply);
      assert forall i :: 1 <= i < |homes| ==> homes[i] == tail[i - 1];
      var parts := seq(|homes|, i requires 0 <= i < |homes| => ExpiredOnLock(homes[i].lockMac, now, listing));
      var tailParts := seq(|tail|, i requires 0 <= i < |tail| => ExpiredOnLock(tail[i].lockMac, now, listing));
      assert parts[1..] == tailParts;
      if LockCleanup(homes[0].lockMac, now, listing, reply).ending.Normal? {
        LockCleanupSelectsExpired(homes[0].lockMac, now, listing, reply);
      }
    }
  }

  /** A cleanup that is cut short ends as the first home whose turn fails. */
  lemma {:induction false} CleanupStopsAtFirst(homes: seq<Home>, now: DateTime, listing: Option<string> -> KeysReply,
                                               reply: (Option<string>, Key) -> Reply)
    requires CleanupAccessCodes(homes, now, listing, reply).ending.Propagated?
    ensures exists i :: 0 <= i < |homes| && !LockCleanup(homes[i].lockMac, now, listing, reply).ending.Normal?
              && (forall j :: 0 <= j < i ==> LockCleanup(homes[j].lockMac, now, listing, reply).ending.Normal?)
              && CleanupAccessCodes(homes, now, listing, reply).ending == LockCleanup(homes[i].lockMac, now, listing, reply).ending
  {
    var first := LockCleanup(homes[0].lockMac, now, listing, reply);
    if first.ending.Normal? {
      var tail := homes[1..];
      assert CleanupAccessCodes(homes, now, listing, reply).ending == CleanupAccessCodes(tail, now, listing, reply).ending;
      CleanupStopsAtFirst(tail, now, listing, reply);
      var i :| 0 <= i < |tail| && !LockCleanup(tail[i].lockMac, now, listing, reply).ending.Normal?
               && (forall j :: 0 <= j < i ==> LockCleanup(tail[j].lockMac, now, listing, reply).ending.Normal?)
               && CleanupAccessCodes(tail, now, listing, reply).ending == LockCleanup(tail[i].lockMac, now, listing, reply).ending;
      assert forall j :: 1 <= j < i + 1 ==> homes[j] == tail[j - 1];
      assert homes[i + 1] == tail[i];
    } else {
      assert CleanupAccessCodes(homes, now, listing, reply) == first;
    }
  }

  /** Once a home's turn fails, no lock of a later home is touched: every
      deletion targets that home's lock or an earlier one. */
  lemma {:induction false} NothingDeletedAfterFailure(homes: seq<Home>, i: nat, now: DateTime,
                                                      listing: Option<string> -> KeysReply,
                                                      reply: (Option<string>, Key) -> Reply)
    requires i < |homes| && !LockCleanup(homes[i].lockMac, now, listing, reply).ending.Normal?
    ensures forall d :: d in CleanupAccessCodes(homes, now, listing, reply).attempted ==>
              exists j :: 0 <= j <= i && d.mac == homes[j].lockMac
  {
    var first := LockCleanup(homes[0].lockMac, now, listing, reply);
    if i == 0 || !first.ending.Normal? {
      assert CleanupAccessCodes(homes, now, listing, reply) == first;
      assert forall d :: d in first.attempted ==> d.mac == homes[0].lockMac;
    } else {
      var tail := homes[1..];
      var rest := CleanupAccessCodes(tail, now, listing, reply);
      assert CleanupAccessCodes(homes, now, listing, reply) == Cleanup(first.attempted + rest.attempted, rest.ending);
      assert tail[i - 1] == homes[i];
      NothingDeletedAfterFailure(tail, i - 1, now, listing, reply);
      forall d | d in first.attempted + rest.attempted
        ensures exists j :: 0 <= j <= i && d.mac == homes[j].lockMac
      {
        if d in first.attempted {
          assert d.mac == homes[0].lockMac;
        } else {
          var j :| 0 <= j <= i - 1 && d.mac == tail[j].lockMac;
          assert d.mac == homes[j + 1].lockMac;
        }
      }
    }
  }

  /** A key made by `create_access_code` is later deleted exactly when its
      check-out, cut to the second, is strictly earlier than the cutoff: the
      name always passes the "days" test and the end time always parses. */
  lemma CreatedKeyExpiry(id: int, mac: Option<string>, last4: string,
                         checkIn: DateTime, checkOut: DateTime, cutoff: DateTime)
    ensures Expired(Key(id, BookingRequest(mac, last4, checkIn, checkOut).name,
                        Scheduled(Some(BookingRequest(mac, last4, checkIn, checkOut).periodicity.endTime))), cutoff)
            <==> Earlier(WholeSeconds(checkOut), cutoff)
  {
    BookingRequestReadsBack(mac, last4, checkIn, checkOut);
  }

  /** A key whose end is at or after the cutoff is never deleted, whatever
      the other keys and replies. */
  lemma FutureKeyKept(keys: seq<Key>, cutoff: DateTime, reply: Key -> Reply, k: Key)
    requires EndTimeOf(k).Ok? && !Earlier(EndTimeOf(k).value, cutoff)
    ensures k !in SweepKeys(keys, cutoff, reply).attempted
  {
  }

  /** A key "Tue-2days" ending 2024-06-04 at 11:00 is expired at the
      midnight that starts 2024-06-05. */
  lemma TuesdayKeyExpired(id: int)
    ensures Expired(Key(id, LabelOf(1, 2), Scheduled(Some(FormatIso(Fields(2024, 6, 4, 11, 0, 0, 0))))),
                    Fields(2024, 6, 5, 0, 0, 0, 0))
  {
    ParseFormatIso(Fields(2024, 6, 4, 11, 0, 0, 0));
  }
}

=== FILE: text.dfy ===
/** Strings as `seq<char>`: the prefix/suffix/substring tests, decimal
    rendering and parsing, `str.split` and ASCII case folding that the
    scripts rely on. */
module Text {
  import opened Outcomes

  predicate IsDigit(c: char) {
    '0' <= c <= '9'
  }

  predicate AllDigits(s: string) {
    forall i :: 0 <= i < |s| ==> IsDigit(s[i])
  }

  /** Python `s.startswith(p)`. */
  predicate StartsWith(s: string, p: string) {
    |p| <= |s| && s[..|p|] == p
  }

  /** Python `s.endswith(p)`. */
  predicate EndsWith(s: string, p: string) {
    |p| <= |s| && s[|s| - |p|..] == p
  }

  /** `sub` occurs in `s` starting at index `i`. */
  predicate OccursAt(s: string, sub: string, i: int) {
    0 <= i && i + |sub| <= |s| && s[i..i + |sub|] == sub
  }

  /** Python `sub in s`, by a left-to-right scan from index `from`. */
  predicate ContainsFrom(s: string, sub: string, from: nat)
    decreases |s| - from
  {
    if from + |sub| > |s| then false
    else s[from..from + |sub|] == sub || ContainsFrom(s, sub, from + 1)
  }

  predicate Contains(s: string, sub: string) {
    ContainsFrom(s, sub, 0)
  }

  /** The scan finds `sub` exactly when it occurs at some index at or after `from`. */
  lemma {:induction false} ContainsFromSpec(s: string, sub: string, from: nat)
    ensures ContainsFrom(s, sub, from) <==> exists i :: from <= i && OccursAt(s, sub, i)
    decreases |s| - from
  {
    if from + |sub| > |s| {
    } else {
      ContainsFromSpec(s, sub, from + 1);
      var here := s[from..from + |sub|] == sub;
      assert ContainsFrom(s, sub, from) == (here || ContainsFrom(s, sub, from + 1));
      if here {
        assert OccursAt(s, sub, from);
      } else if exists i :: from <= i && OccursAt(s, sub, i) {
        var i :| from <= i && OccursAt(s, sub, i);
        assert i != from;
        assert from + 1 <= i && OccursAt(s, sub, i);
      }
    }
  }

  lemma ContainsSpec(s: string, sub: string)
    ensures Contains(s, sub) <==> exists i :: OccursAt(s, sub, i)
  {
    ContainsFromSpec(s, sub, 0);
  }

  /** A suffix is in particular a substring. */
  lemma EndsWithContains(s: string, p: string)
    requires EndsWith(s, p)
    ensures Contains(s, p)
  {
    ContainsSpec(s, p);
    assert OccursAt(s, p, |s| - |p|);
  }

  function DigitValue(c: char): nat
    requires IsDigit(c)
  {
    c as int - '0' as int
  }

  function DigitChar(d: nat): (c: char)
    requires d < 10
    ensures IsDigit(c) && DigitValue(c) == d
  {
    ('0' as int + d) as char
  }

  /** The value of a string of decimal digits (most significant first). */
  function DigitsValue(s: string): nat
    requires AllDigits(s)
  {
    if |s| == 0 then 0 else DigitsValue(s[..|s| - 1]) * 10 + DigitValue(s[|s| - 1])
  }

  function Pow10(w: nat): (p: nat)
    ensures p >= 1
  {
    if w == 0 then 1 else 10 * Pow10(w - 1)
  }

  /** The `w` least significant decimal digits of `n`, zero-padded:
      `strftime`'s `%m`, `%d`, `%H`, ... for `w == 2`. */
  function Fixed(n: nat, w: nat): (s: string)
    ensures |s| == w && AllDigits(s)
  {
    if w == 0 then [] else Fixed(n / 10, w - 1) + [DigitChar(n % 10)]
  }

  /** Reading back a zero-padded field gives the number, when it fits. */
  lemma {:induction false} FixedValue(n: nat, w: nat)
    requires n < Pow10(w)
    ensures DigitsValue(Fixed(n, w)) == n
  {
    if w > 0 {
      FixedValue(n / 10, w - 1);
      var s := Fixed(n, w);
      assert s[..|s| - 1] == Fixed(n / 10, w - 1);
    }
  }

  /** Every digit string of length `w` is the padded rendering of its value. */
  lemma {:induction false} FixedOfValue(s: string)
    requires AllDigits(s)
    ensures DigitsValue(s) < Pow10(|s|)
    ensures Fixed(DigitsValue(s), |s|) == s
  {
    if |s| > 0 {
      var init := s[..|s| - 1];
      FixedOfValue(init);
      var v := DigitsValue(s);
      assert v / 10 == DigitsValue(init);
      assert v % 10 == DigitValue(s[|s| - 1]);
      assert s == init + [s[|s| - 1]];
    }
  }

  /** Python `str(n)` for a natural number: no leading zeros. */
  function NatToString(n: nat): (s: string)
    ensures |s| >= 1 && AllDigits(s)
    ensures DigitsValue(s) == n
    ensures |s| > 1 ==> s[0] != '0'
  {
    if n < 10 then [DigitChar(n)]
    else
      var init := NatToString(n / 10);
      var s := init + [DigitChar(n % 10)];
      assert s[..|s| - 1] == init;
      s
  }

  /** Python `str(i)` for any integer. */
  function IntToString(i: int): (s: string)
    ensures |s| >= 1
  {
    if i < 0 then "-" + NatToString(-i) else NatToString(i)
  }

  /** Reads back exactly what `IntToString` writes: an optional minus sign
      followed by one or more decimal digits. */
  function ParseInt(s: string): (r: Option<int>)
  {
    if |s| >= 2 && s[0] == '-' && AllDigits(s[1..]) then Some(0 - DigitsValue(s[1..]) as int)
    else if |s| >= 1 && AllDigits(s) then Some(DigitsValue(s))
    else None
  }

  lemma IntToStringRoundTrip(i: int)
    ensures ParseInt(IntToString(i)) == Some(i)
  {
    if i < 0 {
      var s := IntToString(i);
      assert s[1..] == NatToString(-i);
    }
  }

  /** Python `int(s)` on the strings the configuration holds: one or more
      ASCII digits. Anything else raises ValueError. */
  function PyInt(s: string): (r: Result<int>)
    ensures r.Ok? <==> |s| >= 1 && AllDigits(s)
    ensures r.Err? ==> r.error.ValueError?
  {
    if |s| >= 1 && AllDigits(s) then Ok(DigitsValue(s))
    else Err(ValueError("invalid literal for int() with base 10"))
  }

  /** `int` reads back both `str(n)` and a zero-padded field. */
  lemma PyIntReadsBack(n: nat, w: nat)
    requires 1 <= w && n < Pow10(w)
    ensures PyInt(NatToString(n)) == Ok(n)
    ensures PyInt(Fixed(n, w)) == Ok(n)
  {
    FixedValue(n, w);
  }

  /** `parts` joined with the separator `c`: Python `c.join(parts)`. */
  function Join(parts: seq<string>, c: char): string
    requires |parts| >= 1
  {
    if |parts| == 1 then parts[0] else parts[0] + [c] + Join(parts[1..], c)
  }

  /** Python `s.split(c)`: the maximal separator-free pieces, in order. */
  function Split(s: string, c: char): (parts: seq<string>)
    ensures |parts| >= 1
    ensures forall k :: 0 <= k < |parts| ==> c !in parts[k]
    ensures Join(parts, c) == s
  {
    if |s| == 0 then [""]
    else
      var rest := Split(s[1..], c);
      if s[0] == c then
        assert ([""] + rest)[1..] == rest;
        [""] + rest
      else
        var parts := [[s[0]] + rest[0]] + rest[1..];
        assert parts[1..] == rest[1..];
        assert s == [s[0]] + s[1..];
        parts
  }

  function LowerChar(c: char): char {
    if 'A' <= c <= 'Z' then (c as int + 32) as char else c
  }

  /** Python `s.lower()` restricted to ASCII letters. */
  function Lower(s: string): (r: string)
    ensures |r| == |s|
    ensures forall i :: 0 <= i < |s| ==> r[i] == LowerChar(s[i])
  {
    if |s| == 0 then [] else [LowerChar(s[0])] + Lower(s[1..])
  }
}

=== FILE: tokens.dfy ===
/** The token retriever: check the required settings, log in through the
    SDK, write the pair to `.env` and exit. Its refresh also goes through
    the SDK and ends in the same exit. */
module TokenRetriever {
  import opened Outcomes
  import opened Api
  import opened Credentials

  /** `os.getenv`: the environment as seen by the script. */
  type Env = string -> Option<string>

  /** `if not os.getenv(var)`: unset and empty are both missing. */
  predicate IsSet(env: Env, name: string) {
    env(name).Some? && env(name).value != ""
  }

  /** The list comprehension of `check_env_variables`. */
  function Missing(required: seq<string>, env: Env): (missing: seq<string>)
    ensures |missing| <= |required|
    ensures forall v :: v in missing <==> v in required && !IsSet(env, v)
  {
    if |required| == 0 then []
    else (if IsSet(env, required[0]) then [] else [required[0]]) + Missing(required[1..], env)
  }

  /** The missing names are reported in the order they were required. */
  lemma {:induction false} MissingKeepsOrder(a: seq<string>, b: seq<string>, env: Env)
    ensures Missing(a + b, env) == Missing(a, env) + Missing(b, env)
  {
    if |a| == 0 {
      assert a + b == b;
    } else {
      assert (a + b)[0] == a[0];
      assert (a + b)[1..] == a[1..] + b;
      MissingKeepsOrder(a[1..], b, env);
    }
  }

  /** `check_env_variables(required_vars)`. */
  function CheckEnvVariables(required: seq<string>, env: Env): (ok: bool)
    ensures ok <==> forall v :: v in required ==> IsSet(env, v)
  {
    var missing := Missing(required, env);
    assert |missing| > 0 ==> missing[0] in missing;
    |missing| == 0
  }

  /** The settings `main` requires: the TOTP key only with `--mfa`. */
  function RequiredVars(mfa: bool): (names: seq<string>)
    ensures "WYZE_EMAIL" in names && "WYZE_PASSWORD" in names
    ensures "WYZE_TOTP_KEY" in names <==> mfa
  {
    ["WYZE_EMAIL", "WYZE_PASSWORD"] + (if mfa then ["WYZE_TOTP_KEY"] else [])
  }

  /** The keyword arguments of `client.login`; `totp` None means the keyword
      is not passed. */
  datatype LoginArgs = LoginArgs(email: Option<string>, password: Option<string>,
                                 keyId: Option<string>, apiKey: Option<string>, totp: Option<string>)

  /** What an SDK token call (`login`, `refresh_token`) returns: a response
      with both tokens, one without them, or an exception. */
  datatype SdkReply = SdkTokens(access: string, refresh: string) | SdkNoTokens | SdkRaised(e: Exc)

  function PairOf(reply: SdkReply): (r: Result<Tokens>)
    ensures r.Ok? <==> reply.SdkTokens?
    ensures r.Ok? ==> r.value == Tokens(Some(reply.access), Some(reply.refresh))
  {
    match reply
    case SdkTokens(a, r) => Ok(Tokens(Some(a), Some(r)))
    case SdkNoTokens => Err(KeyError("access_token"))
    case SdkRaised(e) => Err(e)
  }

  /** `authenticate_with_sdk`: the login call, with `totp_key` passed only
      when it is truthy. */
  function LoginCall(email: Option<string>, password: Option<string>, keyId: Option<string>,
                     apiKey: Option<string>, totp: Option<string>): (args: LoginArgs)
    ensures args.totp.Some? <==> totp.Some? && totp.value != ""
    ensures args.totp.Some? ==> args.totp == totp
    ensures args.email == email && args.password == password && args.keyId == keyId && args.apiKey == apiKey
  {
    LoginArgs(email, password, keyId, apiKey, if totp.Some? && totp.value != "" then totp else None)
  }

  /** `update_env_file`: both keys go to `.env`, then `exit()` raises
      SystemExit, so the call never returns. */
  function UpdateEnvFile(c: Creds, pair: Tokens): (r: Refresh)
    ensures r.result == Err(SystemExit)
    ensures r.after.dotenv == pair && r.after.globals == c.globals && r.after.environ == c.environ
  {
    Refresh(Err(SystemExit), c.(dotenv := pair))
  }

  /** `refresh_access_token` of the retriever: a response with both tokens
      is written to `.env` and ends the process; anything else raises. */
  function RefreshViaSdk(c: Creds, reply: SdkReply): (r: Refresh)
    ensures r.result.Err?
    ensures r.result.error == SystemExit <==> reply.SdkTokens? || reply == SdkRaised(SystemExit)
  {
    match PairOf(reply)
    case Ok(pair) => UpdateEnvFile(c, pair)
    case Err(e) => Refresh(Err(e), c)
  }

  /** The retriever's `get_client`: after an expiry a successful refresh
      ends the process with the new pair in `.env`, and the globals and
      environment are never updated; a refresh that raises an Exception
      surfaces as the probe's error. */
  lemma RetrieverGuardExits(c: Creds, msg: string, reply: SdkReply)
    requires IsExpiry(msg)
    requires reply.SdkRaised? ==> IsException(reply.e)
    ensures GetClient(c, Raised(ApiError(msg)), c => RefreshViaSdk(c, reply), true).client.Err?
    ensures reply.SdkTokens? ==>
              GetClient(c, Raised(ApiError(msg)), c => RefreshViaSdk(c, reply), true)
                == Guard(Err(SystemExit), c.(dotenv := Tokens(Some(reply.access), Some(reply.refresh))),
                         [ProbeCall, RefreshCall])
    ensures !reply.SdkTokens? ==>
              GetClient(c, Raised(ApiError(msg)), c => RefreshViaSdk(c, reply), true)
                == Guard(Err(ApiError(msg)), c, [ProbeCall, RefreshCall])
  {
  }

  /** How `main` went: the login calls made, where the pair stands, and how
      it ended. */
  datatype Retrieval = Retrieval(logins: seq<LoginArgs>, creds: Creds, ending: Ending)

  /** `main()` with `--mfa` or without: check the settings, log in, write
      `.env` and exit. The 30-minute refresh schedule after the write is
      never reached. */
  function Main(mfa: bool, env: Env, c: Creds, login: LoginArgs -> SdkReply): (r: Retrieval)
    ensures |r.logins| <= 1
    ensures !CheckEnvVariables(RequiredVars(mfa), env) ==> r == Retrieval([], c, Normal)
    ensures r.ending.Normal? ==> r.logins == []
  {
    if !CheckEnvVariables(RequiredVars(mfa), env) then Retrieval([], c, Normal)
    else
      var args := LoginCall(env("WYZE_EMAIL"), env("WYZE_PASSWORD"), env("WYZE_KEY_ID"), env("WYZE_API_KEY"),
                            if mfa then env("WYZE_TOTP_KEY") else None);
      match PairOf(login(args))
      case Err(e) => Retrieval([args], c, HandleException(e))
      case Ok(pair) =>
        var written := UpdateEnvFile(c, pair);
        Retrieval([args], written.after, Propagated(written.result.error))
  }

  /** Once the settings are present the login is attempted exactly once, and
      the TOTP key goes with it exactly under `--mfa`; a login that returns
      both tokens ends in SystemExit, which `except Exception` does not
      catch, with the pair in `.env`. */
  lemma MainLogsInThenExits(mfa: bool, env: Env, c: Creds, login: LoginArgs -> SdkReply)
    requires CheckEnvVariables(RequiredVars(mfa), env)
    ensures |Main(mfa, env, c, login).logins| == 1
    ensures Main(mfa, env, c, login).logins[0].totp.Some? <==> mfa
    ensures Main(mfa, env, c, login).logins[0].totp.Some? ==> Main(mfa, env, c, login).logins[0].totp == env("WYZE_TOTP_KEY")
    ensures login(Main(mfa, env, c, login).logins[0]).SdkTokens? ==>
              var reply := login(Main(mfa, env, c, login).logins[0]);
              Main(mfa, env, c, login).ending == Propagated(SystemExit)
              && Main(mfa, env, c, login).creds.dotenv == Tokens(Some(reply.access), Some(reply.refresh))
  {
    assert "WYZE_TOTP_KEY" in RequiredVars(mfa) <==> mfa;
  }
}
